=== FILE: README.md ===
# SQLMesh GitHub CI/CD bot: the run-all gate orchestration

This project models the core of the SQLMesh GitHub CI/CD bot
(`sqlmesh/integrations/github/cicd/command.py`) in Dafny and proves properties
of it. The bot drives five GitHub checks through a shared status protocol:

- tests;
- required approval;
- PR environment;
- production plan preview;
- production environment.

Two parts are modelled:

- **The five gate runners.** These are `_check_required_approvers`, `_run_tests`,
  `_update_pr_environment`, `_gen_prod_plan` and `_deploy_production`. Each one
  moves its check to IN_PROGRESS, calls one controller operation, and maps the
  outcome, or the exception it raised, to a terminal conclusion and a boolean.
- **`_run_all`.** This is the sequential decision tree. It gates on the triggering
  comment, queues the checks, runs the tests, and resolves the required approval.
  It then chains PR environment, production plan and production deploy. It also
  picks a priority-ordered skip reason for a deploy that does not happen, and
  decides whether the run raises.

The controller is an oracle record, `Controller.GithubController`. It holds the
configuration flags, the parsed comment command, and the outcome of every
controller operation a runner calls. These outcomes are:

- the approval flag;
- the test result, or the fact that running the tests raised;
- the conclusion the controller derives for the PR-environment check, on the
  normal path and on the exception path;
- the plan summary, or the text of the exception;
- the deploy outcome. A deploy exception is described by which of the handled
  classes it belongs to, so the order of the `except` clauses is observable.

A run is a pure function, `Orchestrator.RunAll`. It returns an ordered trace of
events and a verdict. An event is either a check update or a controller
operation invoked. A check update is `(check, status, conclusion?, payload?)`.
The verdict says the run returned, raised a `CICDBotError`, or returned early.

The properties are stated against an independent reference description,
`RunAllReference`. It says which runs pass the comment gate, pass the tests,
hold approval, update the PR environment and generate a plan. From those it gives:

- `ExpectedHistory`: the status history every check should go through;
- `ExpectedSkipReason`: the skip reason the production check should carry;
- `ExpectedCalls`: the controller operations the run should invoke;
- `ExpectedCallOrder`: the order in which the run should call them.

Module layout:

- `checks.dfy` (`Checks`): the check vocabulary. It also holds the trace and
  three projections of it: `Lifecycle` (one check's status history), `Calls`
  (the set of operations invoked) and `CallOrder` (the operations in call
  order).
- `controller.dfy` (`Controller`): the controller's configuration and outcomes.
- `runners.dfy` (`Runners`): the five gate runners.
- `orchestrator.dfy` (`Orchestrator`): `_run_all` and its phases.
- `reference.dfy` (`RunAllReference`): the reference description.
- `histories.dfy` (`RunAllHistories`): every check's history, and the status
  protocol.
- `calls.dfy` (`RunAllCalls`): which controller operations a run invokes.
- `order.dfy` (`RunAllOrder`): the order of those calls, and where the approval
  step sits between the tests and the later steps.
- `properties.dfy` (`RunAllProperties`): the comment gate, approval, the
  tests-failed cascade, the gating chain, skip reasons and the verdict.
- `cli.dfy` (`Cli`): the click commands that wrap a single runner.

Three points of the code shape the model:

- **Approval is resolved before the tests-failed short-circuit.** The
  required-approval check is resolved after the tests run but before that
  short-circuit (command.py:212-221). `RunAllOrder.ApprovalBetweenTestsAndLaterSteps`
  states this order over every event of a run. So when the tests fail, the
  approval check is still completed. It is completed SKIPPED when a deploy command pre-granted
  approval, and queued and asked otherwise.
- **The normal PR-environment path counts only SUCCESS as updated.** Without an
  exception, the environment counts as updated only when the derived conclusion
  is SUCCESS (command.py:96-97). Only on the exception path does any conclusion
  other than FAILURE or ACTION_REQUIRED count (command.py:98-105).
- **The conclusion after failed tests is not decided by the bot.** When the tests
  fail, the PR-environment check is completed with a `TestFailure` exception, and
  the bot sets no conclusion itself (command.py:222-225). The controller derives
  it. The model records the completion with no conclusion and a
  `TestFailureException` payload.

## Model

| member | source | states |
|---|---|---|
| Runners.CheckRequiredApprovers | sqlmesh/integrations/github/cicd/command.py:38-48 | The approval check goes IN_PROGRESS, then the controller is asked, then the check is completed. It is completed SUCCESS and returns true exactly when approval is held, and NEUTRAL and false otherwise. |
| Runners.RunTestSuite | sqlmesh/integrations/github/cicd/command.py:62-80 | When the tests run, the check is completed NEUTRAL and the runner returns the suite's success. When running them raises, the check is completed FAILURE with the traceback and the runner returns false. The check is never completed SUCCESS by the runner. |
| Runners.UpdatePrEnv | sqlmesh/integrations/github/cicd/command.py:92-106 | The completion leaves the conclusion to the controller and hands it the exception, if any. Without an exception the runner returns true iff the derived conclusion is SUCCESS. With one, it returns true iff the conclusion is present and neither FAILURE nor ACTION_REQUIRED. A missing conclusion always gives false. |
| Runners.GenProdPlan | sqlmesh/integrations/github/cicd/command.py:120-136 | A summary completes the check SUCCESS with the summary, and the runner returns true iff the summary is non-empty. An exception completes it FAILURE with the exception's text, and the runner returns false. |
| Runners.DeployFailure | sqlmesh/integrations/github/cicd/command.py:162-178 | A ConflictingPlanError completes the production check SKIPPED with its message as the skip reason, even when it is also a PlanError; any other PlanError gives ACTION_REQUIRED and any other exception FAILURE, both without a payload. |
| Runners.DeployProduction | sqlmesh/integrations/github/cicd/command.py:152-178 | The runner returns true exactly when the deploy succeeds, and exactly when SUCCESS is recorded. Merge and teardown are attempted iff it returns true, and only after SUCCESS is recorded. Every failure kind is recorded as its `DeployFailure` update. |
| Runners.GateRunLifecycle | sqlmesh/integrations/github/cicd/command.py:38-178 | A runner's events update only its own check, first to IN_PROGRESS and then to COMPLETED. Everything after the completion is a controller call. |
| Runners.RunnerConclusions | sqlmesh/integrations/github/cicd/command.py:38-178 | Each runner's IN_PROGRESS update carries no conclusion, and a conclusion appears only on its COMPLETED update. |
| Checks.ReasonTextsDistinct | sqlmesh/integrations/github/cicd/command.py:233-263 | The skip reasons for failed tests, missing approval, a stale environment, a missing plan and the unknown case are five different texts on the production check. |
| Orchestrator.MessagesDistinct | sqlmesh/integrations/github/cicd/command.py:51-275 | The six fixed CICDBotError messages (approval, tests, PR environment, plan, deploy, run-all step) are pairwise different. |
| Orchestrator.TriggerGate | sqlmesh/integrations/github/cicd/command.py:195-206 | A run proceeds iff there is no comment, or the comment is a deploy command with commands enabled. A deploy command pre-grants approval. A stopped run never has the `Returned` verdict (the return at the end of `_run_all`): it raises iff the command is unsupported, and otherwise takes one of the early returns. |
| Orchestrator.QueueChecks | sqlmesh/integrations/github/cicd/command.py:207-211 | Only QUEUED updates are made. The production check is queued iff auto-deploying, and the approval check is never queued here. |
| Orchestrator.ResolveApproval | sqlmesh/integrations/github/cicd/command.py:213-220 | Approval holds iff it was pre-granted or the required-approval check finds it. The controller is asked iff the check is on and approval was not pre-granted. With the check off, nothing happens. Only the approval check is updated. |
| Orchestrator.TestsFailedCascade | sqlmesh/integrations/github/cicd/command.py:221-236 | Only completions are made. The production check is skipped for failed tests iff auto-deploying. |
| Orchestrator.PlanGate | sqlmesh/integrations/github/cicd/command.py:238-245 | The plan is asked for iff the PR environment was updated. Otherwise the plan check is completed SKIPPED with nothing else. A plan counts as generated only on an updated environment. |
| Orchestrator.DeploySkipReason | sqlmesh/integrations/github/cicd/command.py:249-263 | Each reason holds exactly under its condition, in priority order: no approval, then PR environment not updated, then plan not generated. The unknown reason holds only when every condition for deploying holds. |
| Orchestrator.DeployGate | sqlmesh/integrations/github/cicd/command.py:246-268 | The deploy is called iff approval holds and a plan was generated. Otherwise an auto-deploying run completes the production check SKIPPED with the priority reason, and a run that is not auto-deploying makes no update. It succeeds exactly when it calls the deploy and the deploy succeeds. |
| Orchestrator.RunAll | sqlmesh/integrations/github/cicd/command.py:190-276 | An early return leaves the trace empty. A raise with an empty trace comes only from an unsupported comment command. |
| RunAllHistories.RunnersAgree | sqlmesh/integrations/github/cicd/command.py:191-248 | The booleans the runners return agree with the reference description: tests pass, environment updated, plan generated, approval held. Approval implies auto-deploying production. |
| RunAllHistories.CheckHistories | sqlmesh/integrations/github/cicd/command.py:190-276 | In every run that passes the comment gate, each check goes through exactly the history the reference description predicts. |
| RunAllHistories.RunFollowsProtocol | sqlmesh/integrations/github/cicd/command.py:190-276 | In every run, no check's status moves backwards, no check is completed twice or updated after completion, and every check that is touched ends COMPLETED. |
| RunAllHistories.RunConclusionsOnlyWhenCompleted | sqlmesh/integrations/github/cicd/command.py:190-276 | In every run, every update that carries a conclusion is a COMPLETED update: no QUEUED or IN_PROGRESS update sets one. |
| RunAllHistories.QueuedOnlyWhenConfigured | sqlmesh/integrations/github/cicd/command.py:207-220 | The production check is touched iff the run proceeds and auto-deploys. The approval check is touched iff the run proceeds and the check is required. |
| RunAllCalls.RunCalls | sqlmesh/integrations/github/cicd/command.py:190-276 | A run invokes exactly the set of controller operations the reference description predicts. |
| RunAllCalls.InvokedExactlyWhen | sqlmesh/integrations/github/cicd/command.py:212-248 | The exact condition under which each controller operation is invoked. Merge and teardown happen together, after a successful deploy. |
| RunAllOrder.RunCallOrder | sqlmesh/integrations/github/cicd/command.py:190-276 | A run calls the controller in exactly the reference order: the tests, then the approval check when it is asked, then, once the tests pass, the PR environment, the plan when the environment was updated, and the deploy when approved and planned, followed by merge and then teardown when it succeeds. |
| RunAllOrder.EachCallOnce | sqlmesh/integrations/github/cicd/command.py:190-276 | No controller operation is called twice in one run. |
| RunAllOrder.ApprovalBetweenTestsAndLaterSteps | sqlmesh/integrations/github/cicd/command.py:212-248 | Every event of the tests step comes before every event of the approval step, and both come before every event of the PR environment, plan and production steps, including the completions made when the tests fail. |
| RunAllProperties.CommentEarlyExits | sqlmesh/integrations/github/cicd/command.py:195-206 | With commands disabled, or with an invalid command, the run returns early with an empty trace. An unsupported command raises with an empty trace. The trace is non-empty iff the run proceeds. |
| RunAllProperties.DeployCommandGrantsApproval | sqlmesh/integrations/github/cicd/command.py:203-217 | With a deploy command, the controller is never asked about approval. The approval check is completed SKIPPED iff it is required. |
| RunAllProperties.ApprovalAlwaysResolved | sqlmesh/integrations/github/cicd/command.py:212-221 | When the approval check is required, it is resolved whether or not the tests pass. It is completed SKIPPED when pre-granted, and queued and asked otherwise. |
| RunAllProperties.FailedTestsStopTheRun | sqlmesh/integrations/github/cicd/command.py:221-237 | When the tests fail:<br>• the run raises the tests error;<br>• the PR-environment check gets the TestFailure;<br>• the plan check is SKIPPED with its message;<br>• the production check is SKIPPED for failed tests iff auto-deploying;<br>• the environment, plan and deploy operations are never called. |
| RunAllProperties.ChecksQueuedInSourceOrder | sqlmesh/integrations/github/cicd/command.py:207-212 | A proceeding run's first events queue the PR environment, the plan preview and the tests in that order. The next event queues production when auto-deploying, and otherwise starts the tests. |
| RunAllProperties.CascadeInSourceOrder | sqlmesh/integrations/github/cicd/command.py:221-236 | A run whose tests fail ends with the PR environment's TestFailure completion, then the plan preview's skip, then, when auto-deploying, production's skip for failed tests. |
| RunAllProperties.PlanOnlyOnUpdatedEnvironment | sqlmesh/integrations/github/cicd/command.py:238-245 | The plan is asked for iff the run proceeds, the tests pass and the PR environment is updated. Otherwise, past the tests, the plan check is completed SKIPPED. |
| RunAllProperties.DeployOnlyWhenApprovedAndPlanned | sqlmesh/integrations/github/cicd/command.py:246-248 | The deploy is called iff the run proceeds, the tests pass, approval holds and a plan was generated. When it is called, the production check was queued earlier in the same trace. |
| RunAllProperties.QueuedBeforeDeploy | sqlmesh/integrations/github/cicd/command.py:192-248 | In a run that deploys, a QUEUED update of the production check precedes the deploy call. |
| RunAllProperties.SkipReasonPriority | sqlmesh/integrations/github/cicd/command.py:249-268 | Consider an auto-deploying run past the tests that does not deploy. Its last update completes the production check SKIPPED with the first applicable reason: no approval, then environment not updated, then plan not generated. |
| RunAllProperties.DeployGateNeverUnknown | sqlmesh/integrations/github/cicd/command.py:246-268 | The deploy decision never records the unknown skip reason. |
| RunAllProperties.UnknownReasonUnreachable | sqlmesh/integrations/github/cicd/command.py:262-263 | No update in any run carries the "unknown reason" skip reason, so the branch that sets it is dead. |
| RunAllProperties.RunVerdict | sqlmesh/integrations/github/cicd/command.py:269-276 | A run has the `Returned` verdict (the return at the end of `_run_all`) iff it proceeds, the tests pass, the environment is updated, a plan is generated, and the deploy succeeds whenever approval holds. Past the tests it otherwise raises the run-all error. |
| RunAllProperties.GreenRunWithoutApproval | sqlmesh/integrations/github/cicd/command.py:246-276 | A green run without approval has the `Returned` verdict and never calls the deploy. |
| Cli.CheckRequiredApproversCommand | sqlmesh/integrations/github/cicd/command.py:51-59 | The command raises, with the approver message, iff approval is not held. |
| Cli.RunTestsCommand | sqlmesh/integrations/github/cicd/command.py:83-89 | The command raises, with the tests message, iff the tests did not pass. |
| Cli.UpdatePrEnvironmentCommand | sqlmesh/integrations/github/cicd/command.py:109-117 | The command raises, with the environment message, iff the PR environment is not updated. |
| Cli.GenProdPlanCommand | sqlmesh/integrations/github/cicd/command.py:139-149 | The command raises, with the plan message, iff no non-empty summary is produced. Its first two updates are both IN_PROGRESS of the plan check. |
| Cli.DeployProductionCommand | sqlmesh/integrations/github/cicd/command.py:181-187 | The command raises, with the deploy message, iff the deploy fails. It merges iff it does not raise. |
| Cli.CommandConclusionsOnlyWhenCompleted | sqlmesh/integrations/github/cicd/command.py:51-187 | In each single-runner command, including the extra IN_PROGRESS of `gen_prod_plan`, a conclusion appears only on a COMPLETED update. |
| Cli.GenProdPlanCommandFollowsProtocol | sqlmesh/integrations/github/cicd/command.py:139-149 | The doubled IN_PROGRESS stays within the status protocol. The plan check's history is IN_PROGRESS, IN_PROGRESS, COMPLETED. |
| Cli.RunnerCommandsFollowProtocol | sqlmesh/integrations/github/cicd/command.py:51-187 | Each single-runner command moves only its own check, through IN_PROGRESS to COMPLETED. |

## Left out

- The click group, its `--token` option, `cli_analytics`, `set_console` with MarkdownConsole, and the construction of `GithubController` (command.py:21-35). These are CLI and I/O plumbing. The `run_all` command returns `_run_all` unchanged and is `RunAll` itself.
- The controller's own logic: talking to GitHub, running unittest, computing and applying plans, merging and tearing down. These are foreign calls. Their results are inputs of the model, and each call appears in the trace only as the `Invoke` of its operation.
- `get_command_from_comment` is not recorded in the trace. The parsed command is an input, so a run that stops at the comment gate has an empty trace.
- How `update_pr_environment_check` derives a conclusion from the environment update or from an exception (command.py:96, 99-101). This lives in the controller, so the derived optional conclusion is an input, and the completion update is recorded with no conclusion.
- Texts: `traceback.format_exc()` is abstracted to a `Traceback` payload, and the unittest result and output to `TestReport(successful)`. The text of `str(e)` and of a plan summary is kept only as an uninterpreted string. The skip-reason and error messages are kept verbatim in `ReasonText` and `Message`.
- Exceptions raised by the `update_*_check` calls themselves, and by `try_merge_pr` or `try_invalidate_pr_environment`, are not modelled. These follow-ups sit inside the `try` of `_deploy_production`, so a raise there would reach the `except Exception` clause. The model assumes the best-effort helpers do not raise, as their names promise.
- RunAllHistories.RunFollowsProtocol: assumes that `controller.has_required_approval` answers (command.py:40). `_check_required_approvers` has no `try`, so a raise there would escape `_run_all`. It would leave the approval check IN_PROGRESS and the queued checks never completed. The model has no outcome for that raise.
- Idempotence and determinism are not stated separately. Every operation is a pure function of the controller's outcomes, so a repeated run with the same outcomes produces the same trace and verdict by construction.

=== FILE: calls.dfy ===
/**
  Which controller operations a run-all execution invokes, segment by segment,
  and their agreement with the reference description.
 */
module RunAllCalls {
  import opened Checks
  import opened Controller
  import opened Runners
  import opened Orchestrator
  import opened RunAllReference
  import opened RunAllHistories

  // ---------------------------------------------------------------------------
  // What each segment of a run invokes
  // ---------------------------------------------------------------------------

  /** The operations the deploy decision invokes. */
  function DeployCalls(approved: bool, planGenerated: bool, deployed: bool): set<Operation> {
    if approved && planGenerated then
      {DeployToProd} + (if deployed then {TryMergePr, TryInvalidatePrEnvironment} else {})
    else {}
  }

  function ApprovalCalls(doCheck: bool, preApproved: bool): set<Operation> {
    if doCheck && !preApproved then {HasRequiredApproval} else {}
  }

  function PlanCalls(envUpdated: bool): set<Operation> {
    if envUpdated then {GetPlanSummary} else {}
  }

  lemma QueueCalls(auto: bool)
    ensures Calls(QueueChecks(auto)) == {}
  {
  }

  lemma CascadeCalls(auto: bool)
    ensures Calls(TestsFailedCascade(auto)) == {}
  {
  }

  lemma RunnerCalls(ctl: GithubController)
    ensures Calls(RunTestSuite(ctl).events) == {RunTests}
    ensures Calls(UpdatePrEnv(ctl).events) == {UpdatePrEnvironment}
  {
  }

  lemma ApprovalGateCalls(ctl: GithubController, preApproved: bool)
    ensures Calls(ResolveApproval(ctl, preApproved).events) == ApprovalCalls(ctl.doRequiredApprovalCheck, preApproved)
  {
  }

  lemma PlanGateCalls(ctl: GithubController, envUpdated: bool)
    ensures Calls(PlanGate(ctl, envUpdated).events) == PlanCalls(envUpdated)
  {
  }

  lemma DeployGateCalls(ctl: GithubController, auto: bool, approved: bool, envUpdated: bool, planGenerated: bool)
    ensures Calls(DeployGate(ctl, auto, approved, envUpdated, planGenerated).events) ==
              DeployCalls(approved, planGenerated, ctl.deploy.Deployed?)
  {
  }

  // ---------------------------------------------------------------------------
  // Assembling a run's calls
  // ---------------------------------------------------------------------------

  /**
    The operations a run whose tests fail invokes, over the run's booleans.
    Each term is one segment's calls in trace order; the `{}` terms are the
    queueing and the cascade, which invoke nothing.
   */
  function FailedCallsShape(doCheck: bool, preApproved: bool): set<Operation> {
    {} + {RunTests} + ApprovalCalls(doCheck, preApproved) + {}
  }

  /**
    The operations a run whose tests pass invokes, over the run's booleans,
    one term per segment as above; the leading `{}` is the queueing.
   */
  function PassedCallsShape(doCheck: bool, preApproved: bool, envUpdated: bool,
                            approved: bool, planGenerated: bool, deployed: bool): set<Operation> {
    {} + {RunTests} + ApprovalCalls(doCheck, preApproved) + {UpdatePrEnvironment}
    + PlanCalls(envUpdated) + DeployCalls(approved, planGenerated, deployed)
  }

  lemma FailedRunCalls(ctl: GithubController)
    requires Proceeds(ctl) && !RunTestSuite(ctl).ok
    ensures Calls(RunAll(ctl).trace) == FailedCallsShape(ctl.doRequiredApprovalCheck, ctl.isCommentAdded)
  {
    var auto := IsAutoDeployingProd(ctl);
    var q := QueueChecks(auto);
    var tests := RunTestSuite(ctl).events;
    var approval := ResolveApproval(ctl, ctl.isCommentAdded).events;
    CallsAppend(q, tests);
    CallsAppend(q + tests, approval);
    CallsAppend(q + tests + approval, TestsFailedCascade(auto));
    QueueCalls(auto);
    RunnerCalls(ctl);
    ApprovalGateCalls(ctl, ctl.isCommentAdded);
    CascadeCalls(auto);
  }

  lemma PassedRunCalls(ctl: GithubController)
    requires Proceeds(ctl) && RunTestSuite(ctl).ok
    ensures
      var approval := ResolveApproval(ctl, ctl.isCommentAdded);
      var env := UpdatePrEnv(ctl);
      Calls(RunAll(ctl).trace) ==
        PassedCallsShape(ctl.doRequiredApprovalCheck, ctl.isCommentAdded, env.ok,
                         approval.ok, PlanGate(ctl, env.ok).ok, ctl.deploy.Deployed?)
  {
    var auto := IsAutoDeployingProd(ctl);
    var q := QueueChecks(auto);
    var tests := RunTestSuite(ctl).events;
    var approval := ResolveApproval(ctl, ctl.isCommentAdded);
    var env := UpdatePrEnv(ctl);
    var plan := PlanGate(ctl, env.ok);
    var deploy := DeployGate(ctl, auto, approval.ok, env.ok, plan.ok).events;
    CallsAppend(q, tests);
    CallsAppend(q + tests, approval.events);
    CallsAppend(q + tests + approval.events, env.events);
    CallsAppend(q + tests + approval.events + env.events, plan.events);
    CallsAppend(q + tests + approval.events + env.events + plan.events, deploy);
    QueueCalls(auto);
    RunnerCalls(ctl);
    ApprovalGateCalls(ctl, ctl.isCommentAdded);
    PlanGateCalls(ctl, env.ok);
    DeployGateCalls(ctl, auto, approval.ok, env.ok, plan.ok);
  }

  /** Over the reference description's booleans, the shapes are the expected calls. */
  lemma CallShapesMatchExpected(ctl: GithubController)
    requires Proceeds(ctl)
    ensures !TestsPass(ctl) ==>
              FailedCallsShape(ctl.doRequiredApprovalCheck, ctl.isCommentAdded) == ExpectedCalls(ctl)
    ensures TestsPass(ctl) ==>
              PassedCallsShape(ctl.doRequiredApprovalCheck, ctl.isCommentAdded, EnvReady(ctl),
                               Approved(ctl), PlanReady(ctl), ctl.deploy.Deployed?) == ExpectedCalls(ctl)
  {
  }

  /** A run invokes exactly the controller operations the reference description predicts. */
  lemma RunCalls(ctl: GithubController)
    ensures Calls(RunAll(ctl).trace) == ExpectedCalls(ctl)
  {
    if Proceeds(ctl) {
      RunnersAgree(ctl);
      CallShapesMatchExpected(ctl);
      if RunTestSuite(ctl).ok {
        PassedRunCalls(ctl);
      } else {
        FailedRunCalls(ctl);
      }
    } else {
      assert RunAll(ctl).trace == [];
    }
  }

  /** Operation by operation: when a run invokes each controller operation. */
  lemma InvokedExactlyWhen(ctl: GithubController)
    ensures Invoke(RunTests) in RunAll(ctl).trace <==> Proceeds(ctl)
    ensures Invoke(HasRequiredApproval) in RunAll(ctl).trace <==>
              Proceeds(ctl) && ctl.doRequiredApprovalCheck && !ctl.isCommentAdded
    ensures Invoke(UpdatePrEnvironment) in RunAll(ctl).trace <==> Proceeds(ctl) && TestsPass(ctl)
    ensures Invoke(GetPlanSummary) in RunAll(ctl).trace <==> Proceeds(ctl) && TestsPass(ctl) && EnvReady(ctl)
    ensures Invoke(DeployToProd) in RunAll(ctl).trace <==>
              Proceeds(ctl) && TestsPass(ctl) && Approved(ctl) && PlanReady(ctl)
    ensures Invoke(TryMergePr) in RunAll(ctl).trace <==>
              Proceeds(ctl) && TestsPass(ctl) && Approved(ctl) && PlanReady(ctl) && ctl.deploy.Deployed?
    ensures Invoke(TryInvalidatePrEnvironment) in RunAll(ctl).trace <==> Invoke(TryMergePr) in RunAll(ctl).trace
  {
    RunCalls(ctl);
    ExpectedCallsMembership(ctl);
  }

  lemma ExpectedCallsMembership(ctl: GithubController)
    ensures RunTests in ExpectedCalls(ctl) <==> Proceeds(ctl)
    ensures HasRequiredApproval in ExpectedCalls(ctl) <==>
              Proceeds(ctl) && ctl.doRequiredApprovalCheck && !ctl.isCommentAdded
    ensures UpdatePrEnvironment in ExpectedCalls(ctl) <==> Proceeds(ctl) && TestsPass(ctl)
    ensures GetPlanSummary in ExpectedCalls(ctl) <==> Proceeds(ctl) && TestsPass(ctl) && EnvReady(ctl)
    ensures DeployToProd in ExpectedCalls(ctl) <==> Proceeds(ctl) && TestsPass(ctl) && Approved(ctl) && PlanReady(ctl)
    ensures TryMergePr in ExpectedCalls(ctl) <==>
              Proceeds(ctl) && TestsPass(ctl) && Approved(ctl) && PlanReady(ctl) && ctl.deploy.Deployed?
    ensures TryInvalidatePrEnvironment in ExpectedCalls(ctl) <==> TryMergePr in ExpectedCalls(ctl)
  {
  }
}

=== FILE: checks.dfy ===
/**
  The GitHub check vocabulary every gate reports through: the five checks the
  CI/CD bot owns, their status and conclusion values, the payloads a check
  update can carry, and the trace of check updates and controller calls that a
  run produces.  This module has no branching logic of its own beyond the
  projections used to read one check's history out of a trace.
 */
module Checks {

  datatype Option<+T> = None | Some(value: T)

  /** The five checks the bot drives. */
  datatype Check = Tests | RequiredApproval | PrEnvironment | ProdPlanPreview | ProdEnvironment

  /** GithubCheckStatus: a check only ever moves forward along this order. */
  datatype Status = Queued | InProgress | Completed {
    function Rank(): nat {
      match this
      case Queued => 0
      case InProgress => 1
      case Completed => 2
    }
  }

  /** GithubCheckConclusion, meaningful only once a check is Completed. */
  datatype Conclusion = Success | Neutral | Failure | Skipped | ActionRequired {
    predicate IsSuccess() { Success? }
    predicate IsFailure() { Failure? }
    predicate IsActionRequired() { ActionRequired? }
  }

  /** The reasons with which the production-environment check is skipped. */
  datatype Reason =
    | TestsFailed
    | NoApproval
    | EnvNotUpdated
    | PlanNotGenerated
    | UnknownReason
    | Conflict(message: string)   // the text of a ConflictingPlanError

  function ReasonText(r: Reason): string {
    match r
    case TestsFailed => "Unit Test(s) Failed so skipping deploying to production"
    case NoApproval => "Skipped Deploying to Production because a required approver has not approved"
    case EnvNotUpdated => "Skipped Deploying to Production because the PR environment was not updated"
    case PlanNotGenerated => "Skipped Deploying to Production because the production plan could not be generated"
    case UnknownReason => "Skipped Deploying to Production for an unknown reason"
    case Conflict(m) => m
  }

  /** The lengths of the fixed skip-reason texts, which tell them apart. */
  lemma ReasonTextLengths()
    ensures |ReasonText(TestsFailed)| == 55 && |ReasonText(NoApproval)| == 76
    ensures |ReasonText(EnvNotUpdated)| == 74 && |ReasonText(PlanNotGenerated)| == 82
    ensures |ReasonText(UnknownReason)| == 53
  {
  }

  /** The four skip reasons `_run_all` chooses between, and the unknown reason, read differently on the check. */
  lemma ReasonTextsDistinct(r1: Reason, r2: Reason)
    requires !r1.Conflict? && !r2.Conflict? && r1 != r2
    ensures ReasonText(r1) != ReasonText(r2)
  {
    ReasonTextLengths();
  }

  /** The summary the plan-preview check is given when tests fail. */
  const PlanSkippedForTests: string := "Unit Test(s) Failed so skipping creating prod plan"

  /** What a check update carries besides its status and conclusion. */
  datatype Payload =
    | TestReport(successful: bool)   // the unittest result and its captured output
    | Traceback                      // the formatted traceback of an unexpected exception
    | RaisedException                // an exception handed to the controller, which derives the conclusion
    | TestFailureException           // the TestFailure marker handed to the PR-environment check
    | Summary(text: string)          // a plan summary, or the text of the error that prevented one
    | SkipReason(reason: Reason)

  /** The controller operations a gate runner invokes. */
  datatype Operation =
    | HasRequiredApproval
    | RunTests
    | UpdatePrEnvironment
    | GetPlanSummary
    | DeployToProd
    | TryMergePr
    | TryInvalidatePrEnvironment

  /** One call to a controller `update_*_check` method. */
  datatype Update = Update(check: Check, status: Status, conclusion: Option<Conclusion>, payload: Option<Payload>)

  datatype Event = Report(update: Update) | Invoke(op: Operation)

  function Queue(c: Check): Event {
    Report(Update(c, Queued, None, None))
  }

  function Begin(c: Check): Event {
    Report(Update(c, InProgress, None, None))
  }

  function Finish(c: Check, conclusion: Conclusion, payload: Option<Payload>): Event {
    Report(Update(c, Completed, Some(conclusion), payload))
  }

  /** A completion whose conclusion the controller derives itself. */
  function FinishDerived(c: Check, payload: Option<Payload>): Event {
    Report(Update(c, Completed, None, payload))
  }

  /** The status history of check `c` in `trace`: the statuses of its updates, in order. */
  function Lifecycle(trace: seq<Event>, c: Check): seq<Status>
    decreases |trace|
  {
    if |trace| == 0 then []
    else
      var last := trace[|trace| - 1];
      Lifecycle(trace[..|trace| - 1], c) + (if last.Report? && last.update.check == c then [last.update.status] else [])
  }

  /** Statuses never move backwards and nothing follows a completion. */
  predicate Monotonic(s: seq<Status>) {
    forall i, j | 0 <= i < j < |s| :: s[i] != Completed && s[i].Rank() <= s[j].Rank()
  }

  /** Every check's history in the trace obeys the status protocol. */
  predicate FollowsProtocol(trace: seq<Event>) {
    forall c: Check :: Monotonic(Lifecycle(trace, c))
  }

  /** Only a completion sets a conclusion: QUEUED and IN_PROGRESS updates carry none. */
  predicate ConclusionOnlyWhenCompleted(trace: seq<Event>) {
    forall i | 0 <= i < |trace| :: trace[i].Report? && trace[i].update.conclusion.Some? ==> trace[i].update.status == Completed
  }

  lemma ConclusionsAppend(a: seq<Event>, b: seq<Event>)
    requires ConclusionOnlyWhenCompleted(a) && ConclusionOnlyWhenCompleted(b)
    ensures ConclusionOnlyWhenCompleted(a + b)
  {
    forall i | 0 <= i < |a + b|
      ensures (a + b)[i].Report? && (a + b)[i].update.conclusion.Some? ==> (a + b)[i].update.status == Completed
    {
      if i >= |a| {
        assert (a + b)[i] == b[i - |a|];
      }
    }
  }

  lemma {:induction false} LifecycleAppend(a: seq<Event>, b: seq<Event>, c: Check)
    ensures Lifecycle(a + b, c) == Lifecycle(a, c) + Lifecycle(b, c)
    decreases |b|
  {
    if |b| == 0 {
      assert a + b == a;
    } else {
      var b' := b[..|b| - 1];
      assert (a + b)[..|a + b| - 1] == a + b';
      assert (a + b)[|a + b| - 1] == b[|b| - 1];
      LifecycleAppend(a, b', c);
    }
  }

  /** A check's history is empty exactly when no update in the trace is about it. */
  lemma {:induction false} UntouchedLifecycle(t: seq<Event>, c: Check)
    ensures Lifecycle(t, c) == [] <==> forall i | 0 <= i < |t| :: !(t[i].Report? && t[i].update.check == c)
    decreases |t|
  {
    if |t| > 0 {
      var t' := t[..|t| - 1];
      UntouchedLifecycle(t', c);
      assert forall i | 0 <= i < |t'| :: t'[i] == t[i];
    }
  }

  lemma LifecycleSingle(e: Event, c: Check)
    ensures Lifecycle([e], c) == (if e.Report? && e.update.check == c then [e.update.status] else [])
  {
    assert [e][..0] == [];
  }

  /** Every update in a trace shows up in its check's history. */
  lemma {:induction false} ReportInLifecycle(trace: seq<Event>, e: Event)
    requires e in trace && e.Report?
    ensures e.update.status in Lifecycle(trace, e.update.check)
    decreases |trace|
  {
    var last := trace[|trace| - 1];
    assert trace == trace[..|trace| - 1] + [last];
    if e != last {
      ReportInLifecycle(trace[..|trace| - 1], e);
    }
  }

  /** The controller operations invoked in `trace`. */
  function Calls(trace: seq<Event>): (ops: set<Operation>)
    ensures forall o :: o in ops <==> Invoke(o) in trace
    decreases |trace|
  {
    if |trace| == 0 then {}
    else
      var last := trace[|trace| - 1];
      assert trace == trace[..|trace| - 1] + [last];
      Calls(trace[..|trace| - 1]) + (if last.Invoke? then {last.op} else {})
  }

  lemma CallsAppend(a: seq<Event>, b: seq<Event>)
    ensures Calls(a + b) == Calls(a) + Calls(b)
  {
  }

  /** The controller operations invoked in `trace`, in the order they are called. */
  function CallOrder(trace: seq<Event>): seq<Operation>
    decreases |trace|
  {
    if |trace| == 0 then []
    else
      var last := trace[|trace| - 1];
      CallOrder(trace[..|trace| - 1]) + (if last.Invoke? then [last.op] else [])
  }

  /** The call order lists exactly the operations invoked in the trace. */
  lemma {:induction false} CallOrderLists(trace: seq<Event>)
    ensures forall o :: o in CallOrder(trace) <==> o in Calls(trace)
    decreases |trace|
  {
    if |trace| > 0 {
      var last := trace[|trace| - 1];
      assert trace == trace[..|trace| - 1] + [last];
      CallOrderLists(trace[..|trace| - 1]);
    }
  }

  lemma {:induction false} CallOrderAppend(a: seq<Event>, b: seq<Event>)
    ensures CallOrder(a + b) == CallOrder(a) + CallOrder(b)
    decreases |b|
  {
    if |b| == 0 {
      assert a + b == a;
    } else {
      var b' := b[..|b| - 1];
      assert (a + b)[..|a + b| - 1] == a + b';
      assert (a + b)[|a + b| - 1] == b[|b| - 1];
      CallOrderAppend(a, b');
    }
  }

  lemma CallOrderSingle(e: Event)
    ensures CallOrder([e]) == (if e.Invoke? then [e.op] else [])
  {
    assert [e][..0] == [];
  }

  lemma CallOrderPair(a: Event, b: Event)
    ensures CallOrder([a, b]) == CallOrder([a]) + CallOrder([b])
  {
    assert [a, b] == [a] + [b];
    CallOrderAppend([a], [b]);
  }

  /** A stretch of check updates calls nothing. */
  lemma {:induction false} ReportsCallNothing(t: seq<Event>)
    requires forall i | 0 <= i < |t| :: t[i].Report?
    ensures CallOrder(t) == []
    decreases |t|
  {
    if |t| > 0 {
      ReportsCallNothing(t[..|t| - 1]);
    }
  }
}

=== FILE: cli.dfy ===
/**
  The bot's click commands that wrap a single gate runner: each runs its runner
  and raises CICDBotError exactly when the runner returns false.  The
  `gen_prod_plan` command moves the plan-preview check to IN_PROGRESS itself
  before the runner does so again.  `run_all` returns `_run_all` unchanged and
  is `RunAll` itself.
 */
module Cli {
  import opened Checks
  import opened Controller
  import opened Runners
  import opened Orchestrator
  import opened RunAllReference

  /** What a single command does: its trace, and the error it raises, if any. */
  datatype CommandRun = CommandRun(trace: seq<Event>, raised: Option<BotError>)

  /** Run a runner's events and raise `error` when it returns false. */
  function RaiseUnless(s: Step, error: BotError): CommandRun {
    CommandRun(s.events, if s.ok then None else Some(error))
  }

  /** `check_required_approvers` (command.py). */
  function CheckRequiredApproversCommand(ctl: GithubController): (r: CommandRun)
    ensures r.raised == None <==> ctl.hasRequiredApproval
    ensures r.raised.Some? ==> r.raised.value == NotApproved
    ensures Invoke(HasRequiredApproval) in r.trace
  {
    RaiseUnless(CheckRequiredApprovers(ctl), NotApproved)
  }

  /** `run_tests` (command.py). */
  function RunTestsCommand(ctl: GithubController): (r: CommandRun)
    ensures r.raised == None <==> TestsPass(ctl)
    ensures r.raised.Some? ==> r.raised.value == TestsNotPassed
    ensures Invoke(RunTests) in r.trace
  {
    RaiseUnless(RunTestSuite(ctl), TestsNotPassed)
  }

  /** `update_pr_environment` (command.py). */
  function UpdatePrEnvironmentCommand(ctl: GithubController): (r: CommandRun)
    ensures r.raised == None <==> EnvReady(ctl)
    ensures r.raised.Some? ==> r.raised.value == PrEnvironmentFailed
    ensures Invoke(UpdatePrEnvironment) in r.trace
  {
    RaiseUnless(UpdatePrEnv(ctl), PrEnvironmentFailed)
  }

  /** `gen_prod_plan` (command.py): an extra IN_PROGRESS update, then `_gen_prod_plan`. */
  function GenProdPlanCommand(ctl: GithubController): (r: CommandRun)
    ensures r.raised == None <==> ctl.plan.PlanSummary? && ctl.plan.text != []
    ensures r.raised.Some? ==> r.raised.value == PlanFailed
    ensures Invoke(GetPlanSummary) in r.trace
    ensures |r.trace| >= 2 && r.trace[0] == r.trace[1] == Begin(ProdPlanPreview)
  {
    var s := GenProdPlan(ctl);
    CommandRun([Begin(ProdPlanPreview)] + s.events, if s.ok then None else Some(PlanFailed))
  }

  /** `deploy_production` (command.py). */
  function DeployProductionCommand(ctl: GithubController): (r: CommandRun)
    ensures r.raised == None <==> ctl.deploy.Deployed?
    ensures r.raised.Some? ==> r.raised.value == NotDeployed
    ensures r.raised == None <==> Invoke(TryMergePr) in r.trace
  {
    RaiseUnless(DeployProduction(ctl), NotDeployed)
  }

  /**
    The doubled IN_PROGRESS update of `gen_prod_plan` stays within the status
    protocol, which is why the protocol allows a status to repeat.
   */
  lemma GenProdPlanCommandFollowsProtocol(ctl: GithubController)
    ensures Lifecycle(GenProdPlanCommand(ctl).trace, ProdPlanPreview) == [InProgress, InProgress, Completed]
    ensures FollowsProtocol(GenProdPlanCommand(ctl).trace)
  {
    var s := GenProdPlan(ctl);
    forall c: Check
      ensures Lifecycle(GenProdPlanCommand(ctl).trace, c) == (if c == ProdPlanPreview then [InProgress, InProgress, Completed] else [])
    {
      LifecycleAppend([Begin(ProdPlanPreview)], s.events, c);
      LifecycleSingle(Begin(ProdPlanPreview), c);
      GateRunLifecycle(s.events, ProdPlanPreview, GetPlanSummary, c);
    }
    assert Monotonic([InProgress, InProgress, Completed]);
  }

  /** The single-runner commands move their one check through IN_PROGRESS to COMPLETED and touch no other. */
  lemma RunnerCommandsFollowProtocol(ctl: GithubController, c: Check)
    ensures Lifecycle(CheckRequiredApproversCommand(ctl).trace, c) == (if c == RequiredApproval then [InProgress, Completed] else [])
    ensures Lifecycle(RunTestsCommand(ctl).trace, c) == (if c == Tests then [InProgress, Completed] else [])
    ensures Lifecycle(UpdatePrEnvironmentCommand(ctl).trace, c) == (if c == PrEnvironment then [InProgress, Completed] else [])
    ensures Lifecycle(DeployProductionCommand(ctl).trace, c) == (if c == ProdEnvironment then [InProgress, Completed] else [])
  {
    GateRunLifecycle(CheckRequiredApprovers(ctl).events, RequiredApproval, HasRequiredApproval, c);
    GateRunLifecycle(RunTestSuite(ctl).events, Tests, RunTests, c);
    GateRunLifecycle(UpdatePrEnv(ctl).events, PrEnvironment, UpdatePrEnvironment, c);
    GateRunLifecycle(DeployProduction(ctl).events, ProdEnvironment, DeployToProd, c);
  }

  /** The commands, too, set a conclusion only on a completing update. */
  lemma CommandConclusionsOnlyWhenCompleted(ctl: GithubController)
    ensures ConclusionOnlyWhenCompleted(CheckRequiredApproversCommand(ctl).trace)
    ensures ConclusionOnlyWhenCompleted(RunTestsCommand(ctl).trace)
    ensures ConclusionOnlyWhenCompleted(UpdatePrEnvironmentCommand(ctl).trace)
    ensures ConclusionOnlyWhenCompleted(GenProdPlanCommand(ctl).trace)
    ensures ConclusionOnlyWhenCompleted(DeployProductionCommand(ctl).trace)
  {
    RunnerConclusions(ctl);
    ConclusionsAppend([Begin(ProdPlanPreview)], GenProdPlan(ctl).events);
  }
}

=== FILE: controller.dfy ===
/**
  The GitHub controller as seen by the bot's commands: its configuration flags
  and, for every controller operation a gate runner calls, the outcome that
  operation produces.  The controller's own logic (talking to GitHub, running
  unittest, computing and applying plans) lies outside this model; its results
  are inputs here.
 */
module Controller {
  import opened Checks

  /** `controller.run_tests()`: a result whose `wasSuccessful()` is known, or an exception. */
  datatype TestOutcome = TestsRan(successful: bool) | TestsRaised

  /**
    `controller.update_pr_environment()` either returns or raises; either way the
    bot then asks the controller to complete the PR-environment check, and the
    controller answers with the conclusion it derived, which may be absent.
   */
  datatype EnvOutcome =
    | EnvUpdated(derived: Option<Conclusion>)
    | EnvRaised(derived: Option<Conclusion>)

  /** `controller.get_plan_summary(controller.prod_plan)`: a summary, or an exception with its text. */
  datatype PlanOutcome = PlanSummary(text: string) | PlanRaised(message: string)

  /**
    An exception raised by `deploy_to_prod`, described by which of the handled
    exception classes it is an instance of: `conflict` holds the message when it
    is a ConflictingPlanError, `isPlanError` says whether it is a PlanError.
   */
  datatype DeployError = DeployError(conflict: Option<string>, isPlanError: bool)

  /** `controller.deploy_to_prod()`. */
  datatype DeployOutcome = Deployed | DeployRaised(error: DeployError)

  /** The command parsed from a PR comment. */
  datatype Command = Invalid | DeployProd | Unsupported(text: string)

  datatype GithubController = GithubController(
    deployCommandEnabled: bool,
    doRequiredApprovalCheck: bool,
    isCommentAdded: bool,
    command: Command,
    hasRequiredApproval: bool,
    tests: TestOutcome,
    env: EnvOutcome,
    plan: PlanOutcome,
    deploy: DeployOutcome
  )

  /** Production is auto-deployed when the deploy command or the required-approval check is enabled. */
  predicate IsAutoDeployingProd(ctl: GithubController) {
    ctl.deployCommandEnabled || ctl.doRequiredApprovalCheck
  }
}

=== FILE: histories.dfy ===
/**
  The status history every check goes through in a run-all execution, and the
  status protocol it obeys: statuses never move backwards, no check is
  completed twice, and no check that was touched is left unfinished.
 */
module RunAllHistories {
  import opened Checks
  import opened Controller
  import opened Runners
  import opened Orchestrator
  import opened RunAllReference

  // ---------------------------------------------------------------------------
  // What each segment of a run contributes
  // ---------------------------------------------------------------------------

  /** The statuses the queue phase gives check `c`. */
  function QueuePart(c: Check, auto: bool): seq<Status> {
    if c == RequiredApproval || (c == ProdEnvironment && !auto) then [] else [Queued]
  }

  /** The statuses a gate runner for `check` gives check `c`. */
  function RunnerPart(c: Check, check: Check): seq<Status> {
    if c == check then [InProgress, Completed] else []
  }

  function ApprovalPart(c: Check, doCheck: bool, preApproved: bool): seq<Status> {
    if c != RequiredApproval || !doCheck then []
    else if preApproved then [Completed]
    else [Queued, InProgress, Completed]
  }

  function CascadePart(c: Check, auto: bool): seq<Status> {
    if c == PrEnvironment || c == ProdPlanPreview || (c == ProdEnvironment && auto) then [Completed] else []
  }

  function PlanPart(c: Check, envUpdated: bool): seq<Status> {
    if c != ProdPlanPreview then [] else if envUpdated then [InProgress, Completed] else [Completed]
  }

  function DeployPart(c: Check, auto: bool, approved: bool, planGenerated: bool): seq<Status> {
    if c != ProdEnvironment then []
    else if approved && planGenerated then [InProgress, Completed]
    else if auto then [Completed]
    else []
  }

  lemma QueueLifecycle(auto: bool, c: Check)
    ensures Lifecycle(QueueChecks(auto), c) == QueuePart(c, auto)
  {
    var e0, e1, e2, e3 := Queue(PrEnvironment), Queue(ProdPlanPreview), Queue(Tests), Queue(ProdEnvironment);
    var three := [e0] + [e1] + [e2];
    LifecycleAppend([e0] + [e1], [e2], c);
    LifecycleAppend([e0], [e1], c);
    LifecycleSingle(e0, c);
    LifecycleSingle(e1, c);
    LifecycleSingle(e2, c);
    if auto {
      assert QueueChecks(auto) == three + [e3];
      LifecycleAppend(three, [e3], c);
      LifecycleSingle(e3, c);
    } else {
      assert QueueChecks(auto) == three;
    }
  }

  lemma ApprovalLifecycle(ctl: GithubController, preApproved: bool, c: Check)
    ensures Lifecycle(ResolveApproval(ctl, preApproved).events, c) ==
              ApprovalPart(c, ctl.doRequiredApprovalCheck, preApproved)
  {
    if !ctl.doRequiredApprovalCheck {
    } else if preApproved {
      LifecycleSingle(Finish(RequiredApproval, Skipped, None), c);
    } else {
      var s := CheckRequiredApprovers(ctl);
      LifecycleAppend([Queue(RequiredApproval)], s.events, c);
      LifecycleSingle(Queue(RequiredApproval), c);
      GateRunLifecycle(s.events, RequiredApproval, HasRequiredApproval, c);
    }
  }

  lemma CascadeLifecycle(auto: bool, c: Check)
    ensures Lifecycle(TestsFailedCascade(auto), c) == CascadePart(c, auto)
  {
    var e0 := FinishDerived(PrEnvironment, Some(TestFailureException));
    var e1 := Finish(ProdPlanPreview, Skipped, Some(Summary(PlanSkippedForTests)));
    var e2 := Finish(ProdEnvironment, Skipped, Some(SkipReason(TestsFailed)));
    var tail := if auto then [e2] else [];
    assert TestsFailedCascade(auto) == [e0] + [e1] + tail;
    LifecycleAppend([e0] + [e1], tail, c);
    LifecycleAppend([e0], [e1], c);
    LifecycleSingle(e0, c);
    LifecycleSingle(e1, c);
    LifecycleSingle(e2, c);
  }

  lemma PlanGateLifecycle(ctl: GithubController, envUpdated: bool, c: Check)
    ensures Lifecycle(PlanGate(ctl, envUpdated).events, c) == PlanPart(c, envUpdated)
  {
    if envUpdated {
      GateRunLifecycle(GenProdPlan(ctl).events, ProdPlanPreview, GetPlanSummary, c);
    } else {
      LifecycleSingle(Finish(ProdPlanPreview, Skipped, None), c);
    }
  }

  lemma DeployGateLifecycle(ctl: GithubController, auto: bool, approved: bool,
                            envUpdated: bool, planGenerated: bool, c: Check)
    ensures Lifecycle(DeployGate(ctl, auto, approved, envUpdated, planGenerated).events, c) ==
              DeployPart(c, auto, approved, planGenerated)
  {
    if approved && planGenerated {
      GateRunLifecycle(DeployProduction(ctl).events, ProdEnvironment, DeployToProd, c);
    } else if auto {
      LifecycleSingle(Finish(ProdEnvironment, Skipped,
                             Some(SkipReason(DeploySkipReason(approved, envUpdated, planGenerated)))), c);
    }
  }

  // ---------------------------------------------------------------------------
  // Assembling a run's history
  // ---------------------------------------------------------------------------

  /** The runners' booleans agree with the reference description. */
  lemma RunnersAgree(ctl: GithubController)
    requires Proceeds(ctl)
    ensures RunTestSuite(ctl).ok <==> TestsPass(ctl)
    ensures UpdatePrEnv(ctl).ok <==> EnvReady(ctl)
    ensures PlanGate(ctl, UpdatePrEnv(ctl).ok).ok <==> PlanReady(ctl)
    ensures ResolveApproval(ctl, ctl.isCommentAdded).ok <==> Approved(ctl)
    ensures Approved(ctl) ==> IsAutoDeployingProd(ctl)
  {
  }

  /** The history of check `c` in a run whose tests fail, over the run's booleans. */
  function FailedShape(c: Check, auto: bool, doCheck: bool, preApproved: bool): seq<Status> {
    QueuePart(c, auto) + RunnerPart(c, Tests) + ApprovalPart(c, doCheck, preApproved) + CascadePart(c, auto)
  }

  /** The history of check `c` in a run whose tests pass, over the run's booleans. */
  function PassedShape(c: Check, auto: bool, doCheck: bool, preApproved: bool,
                       envUpdated: bool, approved: bool, planGenerated: bool): seq<Status> {
    QueuePart(c, auto) + RunnerPart(c, Tests) + ApprovalPart(c, doCheck, preApproved)
    + RunnerPart(c, PrEnvironment) + PlanPart(c, envUpdated) + DeployPart(c, auto, approved, planGenerated)
  }

  lemma FailedRunLifecycle(ctl: GithubController, c: Check)
    requires Proceeds(ctl) && !RunTestSuite(ctl).ok
    ensures Lifecycle(RunAll(ctl).trace, c) ==
              FailedShape(c, IsAutoDeployingProd(ctl), ctl.doRequiredApprovalCheck, ctl.isCommentAdded)
  {
    var auto := IsAutoDeployingProd(ctl);
    var q := QueueChecks(auto);
    var tests := RunTestSuite(ctl).events;
    var approval := ResolveApproval(ctl, ctl.isCommentAdded).events;
    var cascade := TestsFailedCascade(auto);
    assert RunAll(ctl).trace == q + tests + approval + cascade;
    LifecycleAppend(q, tests, c);
    LifecycleAppend(q + tests, approval, c);
    LifecycleAppend(q + tests + approval, cascade, c);
    QueueLifecycle(auto, c);
    GateRunLifecycle(tests, Tests, RunTests, c);
    ApprovalLifecycle(ctl, ctl.isCommentAdded, c);
    CascadeLifecycle(auto, c);
  }

  lemma PassedRunLifecycle(ctl: GithubController, c: Check)
    requires Proceeds(ctl) && RunTestSuite(ctl).ok
    ensures
      var approval := ResolveApproval(ctl, ctl.isCommentAdded);
      var env := UpdatePrEnv(ctl);
      Lifecycle(RunAll(ctl).trace, c) ==
        PassedShape(c, IsAutoDeployingProd(ctl), ctl.doRequiredApprovalCheck, ctl.isCommentAdded,
                    env.ok, approval.ok, PlanGate(ctl, env.ok).ok)
  {
    var auto := IsAutoDeployingProd(ctl);
    var q := QueueChecks(auto);
    var tests := RunTestSuite(ctl).events;
    var approval := ResolveApproval(ctl, ctl.isCommentAdded);
    var env := UpdatePrEnv(ctl);
    var plan := PlanGate(ctl, env.ok);
    var deploy := DeployGate(ctl, auto, approval.ok, env.ok, plan.ok).events;
    assert RunAll(ctl).trace == q + tests + approval.events + env.events + plan.events + deploy;
    LifecycleAppend(q, tests, c);
    LifecycleAppend(q + tests, approval.events, c);
    LifecycleAppend(q + tests + approval.events, env.events, c);
    LifecycleAppend(q + tests + approval.events + env.events, plan.events, c);
    LifecycleAppend(q + tests + approval.events + env.events + plan.events, deploy, c);
    QueueLifecycle(auto, c);
    GateRunLifecycle(tests, Tests, RunTests, c);
    ApprovalLifecycle(ctl, ctl.isCommentAdded, c);
    GateRunLifecycle(env.events, PrEnvironment, UpdatePrEnvironment, c);
    PlanGateLifecycle(ctl, env.ok, c);
    DeployGateLifecycle(ctl, auto, approval.ok, env.ok, plan.ok, c);
  }

  /** Over the reference description's booleans, the shapes add up to the expected history. */
  lemma ShapesMatchExpected(ctl: GithubController, c: Check)
    requires Proceeds(ctl)
    ensures !TestsPass(ctl) ==>
              FailedShape(c, IsAutoDeployingProd(ctl), ctl.doRequiredApprovalCheck, ctl.isCommentAdded)
                == ExpectedHistory(ctl, c)
    ensures TestsPass(ctl) ==>
              PassedShape(c, IsAutoDeployingProd(ctl), ctl.doRequiredApprovalCheck, ctl.isCommentAdded,
                          EnvReady(ctl), Approved(ctl), PlanReady(ctl))
                == ExpectedHistory(ctl, c)
  {
  }

  // ---------------------------------------------------------------------------
  // Properties of the histories
  // ---------------------------------------------------------------------------

  /** Every check goes through exactly the history the reference description predicts. */
  lemma CheckHistories(ctl: GithubController, c: Check)
    requires Proceeds(ctl)
    ensures Lifecycle(RunAll(ctl).trace, c) == ExpectedHistory(ctl, c)
  {
    RunnersAgree(ctl);
    ShapesMatchExpected(ctl, c);
    if RunTestSuite(ctl).ok {
      PassedRunLifecycle(ctl, c);
    } else {
      FailedRunLifecycle(ctl, c);
    }
  }

  /** The expected histories all obey the protocol and end COMPLETED. */
  lemma ExpectedHistoryFollowsProtocol(ctl: GithubController, c: Check)
    ensures Monotonic(ExpectedHistory(ctl, c))
    ensures ExpectedHistory(ctl, c) == [] || ExpectedHistory(ctl, c)[|ExpectedHistory(ctl, c)| - 1] == Completed
  {
    var h := ExpectedHistory(ctl, c);
    assert h == [] || h == [Completed] || h == [Queued, Completed] || h == [Queued, InProgress, Completed];
  }

  /** No check regresses or is completed twice, and every check touched ends COMPLETED. */
  lemma RunFollowsProtocol(ctl: GithubController)
    ensures FollowsProtocol(RunAll(ctl).trace)
    ensures forall c: Check :: Lifecycle(RunAll(ctl).trace, c) == [] ||
              Lifecycle(RunAll(ctl).trace, c)[|Lifecycle(RunAll(ctl).trace, c)| - 1] == Completed
  {
    forall c: Check
      ensures Monotonic(Lifecycle(RunAll(ctl).trace, c))
      ensures Lifecycle(RunAll(ctl).trace, c) == [] ||
              Lifecycle(RunAll(ctl).trace, c)[|Lifecycle(RunAll(ctl).trace, c)| - 1] == Completed
    {
      if Proceeds(ctl) {
        CheckHistories(ctl, c);
        ExpectedHistoryFollowsProtocol(ctl, c);
      } else {
        assert RunAll(ctl).trace == [];
      }
    }
  }

  /** The production check is touched only when auto-deploying, the approval check only when it is required. */
  lemma QueuedOnlyWhenConfigured(ctl: GithubController)
    ensures Lifecycle(RunAll(ctl).trace, ProdEnvironment) != [] <==> Proceeds(ctl) && IsAutoDeployingProd(ctl)
    ensures Lifecycle(RunAll(ctl).trace, RequiredApproval) != [] <==> Proceeds(ctl) && ctl.doRequiredApprovalCheck
  {
    if Proceeds(ctl) {
      CheckHistories(ctl, ProdEnvironment);
      CheckHistories(ctl, RequiredApproval);
    } else {
      assert RunAll(ctl).trace == [];
    }
  }

  // ---------------------------------------------------------------------------
  // Conclusions
  // ---------------------------------------------------------------------------

  lemma PhaseConclusions(ctl: GithubController, auto: bool, preApproved: bool,
                         approved: bool, envUpdated: bool, planGenerated: bool)
    ensures ConclusionOnlyWhenCompleted(QueueChecks(auto))
    ensures ConclusionOnlyWhenCompleted(ResolveApproval(ctl, preApproved).events)
    ensures ConclusionOnlyWhenCompleted(TestsFailedCascade(auto))
    ensures ConclusionOnlyWhenCompleted(PlanGate(ctl, envUpdated).events)
    ensures ConclusionOnlyWhenCompleted(DeployGate(ctl, auto, approved, envUpdated, planGenerated).events)
  {
    RunnerConclusions(ctl);
    if ctl.doRequiredApprovalCheck && !preApproved {
      ConclusionsAppend([Queue(RequiredApproval)], CheckRequiredApprovers(ctl).events);
    }
  }

  /** In every run, QUEUED and IN_PROGRESS updates carry no conclusion; only completions do. */
  lemma RunConclusionsOnlyWhenCompleted(ctl: GithubController)
    ensures ConclusionOnlyWhenCompleted(RunAll(ctl).trace)
  {
    if Proceeds(ctl) {
      var auto := IsAutoDeployingProd(ctl);
      var q := QueueChecks(auto);
      var tests := RunTestSuite(ctl);
      var approval := ResolveApproval(ctl, ctl.isCommentAdded);
      RunnerConclusions(ctl);
      ConclusionsAppend(q, tests.events);
      ConclusionsAppend(q + tests.events, approval.events);
      if !tests.ok {
        PhaseConclusions(ctl, auto, ctl.isCommentAdded, false, false, false);
        ConclusionsAppend(q + tests.events + approval.events, TestsFailedCascade(auto));
      } else {
        var env := UpdatePrEnv(ctl);
        var plan := PlanGate(ctl, env.ok);
        var deploy := DeployGate(ctl, auto, approval.ok, env.ok, plan.ok);
        PhaseConclusions(ctl, auto, ctl.isCommentAdded, approval.ok, env.ok, plan.ok);
        ConclusionsAppend(q + tests.events + approval.events, env.events);
        ConclusionsAppend(q + tests.events + approval.events + env.events, plan.events);
        ConclusionsAppend(q + tests.events + approval.events + env.events + plan.events, deploy.events);
      }
    }
  }
}

=== FILE: orchestrator.dfy ===
/**
  `_run_all`: the sequential decision tree that gates a run on the triggering
  comment, queues the checks, runs the tests, resolves the required approval,
  chains PR environment -> production plan -> production deploy, picks the
  skip reason for a deploy that does not happen, and decides whether the run
  raises.  A run is a pure function of the controller's configuration and
  outcomes; it yields the ordered trace of check updates and controller calls
  together with the verdict.
 */
module Orchestrator {
  import opened Checks
  import opened Controller
  import opened Runners

  /** The CICDBotError raises of the bot's commands, one per message. */
  datatype BotError =
    | NotApproved
    | TestsNotPassed
    | PrEnvironmentFailed
    | PlanFailed
    | NotDeployed
    | StepFailed
    | UnsupportedCommand(command: string)

  function Message(e: BotError): string {
    match e
    case NotApproved => "Required approver has not approved the PR. See check status for more information."
    case TestsNotPassed => "Failed to run tests. See check status for more information."
    case PrEnvironmentFailed => "Failed to update PR environment. See check status for more information."
    case PlanFailed => "Failed to generate production plan. See check status for more information."
    case NotDeployed => "Failed to deploy to production. See check status for more information."
    case StepFailed => "A step of the run-all check failed. See check status for more information."
    case UnsupportedCommand(command) => "Unsupported command: " + command
  }

  lemma FailureMessageLengths()
    ensures |Message(NotApproved)| == 81 && |Message(TestsNotPassed)| == 59
    ensures |Message(PrEnvironmentFailed)| == 71
  {
  }

  lemma StepMessageLengths()
    ensures |Message(PlanFailed)| == 74 && |Message(NotDeployed)| == 70
    ensures |Message(StepFailed)| == 74
  {
  }

  /** The two texts of length 74 differ in the last letter before their shared suffix. */
  lemma PlanAndStepMessagesDiffer()
    ensures Message(PlanFailed)[33] == 'n' && Message(StepFailed)[33] == 'd'
  {
  }

  /** Each fixed CICDBotError text names one failure: no two of them coincide. */
  lemma MessagesDistinct(e1: BotError, e2: BotError)
    requires !e1.UnsupportedCommand? && !e2.UnsupportedCommand? && e1 != e2
    ensures Message(e1) != Message(e2)
  {
    FailureMessageLengths();
    StepMessageLengths();
    PlanAndStepMessagesDiffer();
  }

  /** How `_run_all` ends: it returns at the end, raises CICDBotError, or returns early. */
  datatype Verdict = Returned | Raised(error: BotError) | EarlyReturn

  datatype Run = Run(trace: seq<Event>, verdict: Verdict)

  /** Whether the comment gate lets the run through, and with what initial approval. */
  datatype Trigger = Proceed(preApproved: bool) | Stop(verdict: Verdict)

  /** The comment-triggered early exits at the top of `_run_all`. */
  function TriggerGate(ctl: GithubController): (t: Trigger)
    ensures t.Proceed? <==> !ctl.isCommentAdded || (ctl.deployCommandEnabled && ctl.command.DeployProd?)
    ensures t.Proceed? ==> (t.preApproved <==> ctl.isCommentAdded)
    ensures t.Stop? ==> t.verdict != Returned
    ensures t.Stop? ==> (t.verdict.Raised? <==> ctl.deployCommandEnabled && ctl.command.Unsupported?)
  {
    if !ctl.isCommentAdded then Proceed(false)
    else if !ctl.deployCommandEnabled then Stop(EarlyReturn)
    else
      match ctl.command
      case Invalid => Stop(EarlyReturn)
      case DeployProd => Proceed(true)
      case Unsupported(text) => Stop(Raised(UnsupportedCommand(text)))
  }

  /** The queue phase: PR environment, plan preview and tests, then production if auto-deploying. */
  function QueueChecks(auto: bool): (t: seq<Event>)
    ensures Queue(ProdEnvironment) in t <==> auto
    ensures Queue(RequiredApproval) !in t
    ensures forall i | 0 <= i < |t| :: t[i].Report? && t[i].update.status == Queued
  {
    [Queue(PrEnvironment), Queue(ProdPlanPreview), Queue(Tests)] + (if auto then [Queue(ProdEnvironment)] else [])
  }

  /**
    The required-approval step.  With the check switched off nothing happens;
    an approval already granted by the deploy command completes the check
    SKIPPED without asking the controller; otherwise the check is queued and
    `_check_required_approvers` decides.
   */
  function ResolveApproval(ctl: GithubController, preApproved: bool): (r: Step)
    ensures r.ok <==> preApproved || (ctl.doRequiredApprovalCheck && ctl.hasRequiredApproval)
    ensures Invoke(HasRequiredApproval) in r.events <==> ctl.doRequiredApprovalCheck && !preApproved
    ensures !ctl.doRequiredApprovalCheck ==> r.events == []
    ensures forall i | 0 <= i < |r.events| :: r.events[i].Report? ==> r.events[i].update.check == RequiredApproval
  {
    if !ctl.doRequiredApprovalCheck then Step([], preApproved)
    else if preApproved then Step([Finish(RequiredApproval, Skipped, None)], true)
    else
      var s := CheckRequiredApprovers(ctl);
      Step([Queue(RequiredApproval)] + s.events, s.ok)
  }

  /** The updates made when the tests fail; no runner is called. */
  function TestsFailedCascade(auto: bool): (t: seq<Event>)
    ensures forall i | 0 <= i < |t| :: t[i].Report? && t[i].update.status == Completed
    ensures Report(Update(ProdEnvironment, Completed, Some(Skipped), Some(SkipReason(TestsFailed)))) in t <==> auto
  {
    [ FinishDerived(PrEnvironment, Some(TestFailureException)),
      Finish(ProdPlanPreview, Skipped, Some(Summary(PlanSkippedForTests))) ]
    + (if auto then [Finish(ProdEnvironment, Skipped, Some(SkipReason(TestsFailed)))] else [])
  }

  /** The plan runs only on an updated PR environment; otherwise the check is completed SKIPPED. */
  function PlanGate(ctl: GithubController, envUpdated: bool): (r: Step)
    ensures r.ok ==> envUpdated
    ensures Invoke(GetPlanSummary) in r.events <==> envUpdated
    ensures !envUpdated ==> r.events == [Finish(ProdPlanPreview, Skipped, None)]
  {
    if envUpdated then GenProdPlan(ctl) else Step([Finish(ProdPlanPreview, Skipped, None)], false)
  }

  /** The skip reason for a production deploy that does not run, by priority. */
  function DeploySkipReason(approved: bool, envUpdated: bool, planGenerated: bool): (r: Reason)
    ensures r.NoApproval? <==> !approved
    ensures r.EnvNotUpdated? <==> approved && !envUpdated
    ensures r.PlanNotGenerated? <==> approved && envUpdated && !planGenerated
    ensures r.UnknownReason? <==> approved && envUpdated && planGenerated
  {
    if !approved then NoApproval
    else if !envUpdated then EnvNotUpdated
    else if !planGenerated then PlanNotGenerated
    else UnknownReason
  }

  /** The deploy decision: run `_deploy_production`, skip a queued check with a reason, or leave it alone. */
  function DeployGate(ctl: GithubController, auto: bool, approved: bool, envUpdated: bool, planGenerated: bool): (r: Step)
    ensures r.ok <==> approved && planGenerated && ctl.deploy.Deployed?
    ensures Invoke(DeployToProd) in r.events <==> approved && planGenerated
    ensures !(approved && planGenerated) && !auto ==> r.events == []
    ensures !(approved && planGenerated) && auto ==>
              r.events == [Finish(ProdEnvironment, Skipped, Some(SkipReason(DeploySkipReason(approved, envUpdated, planGenerated))))]
  {
    if approved && planGenerated then DeployProduction(ctl)
    else if auto then
      Step([Finish(ProdEnvironment, Skipped, Some(SkipReason(DeploySkipReason(approved, envUpdated, planGenerated))))], false)
    else Step([], false)
  }

  /** `_run_all` (command.py). */
  function RunAll(ctl: GithubController): (r: Run)
    ensures r.verdict.EarlyReturn? ==> r.trace == []
    ensures r.verdict.Raised? && r.trace == [] ==> ctl.isCommentAdded && ctl.command.Unsupported?
  {
    match TriggerGate(ctl)
    case Stop(v) => Run([], v)
    case Proceed(preApproved) =>
      var auto := IsAutoDeployingProd(ctl);
      var tests := RunTestSuite(ctl);
      var approval := ResolveApproval(ctl, preApproved);
      var prefix := QueueChecks(auto) + tests.events + approval.events;
      if !tests.ok then
        Run(prefix + TestsFailedCascade(auto), Raised(TestsNotPassed))
      else
        var env := UpdatePrEnv(ctl);
        var plan := PlanGate(ctl, env.ok);
        var deploy := DeployGate(ctl, auto, approval.ok, env.ok, plan.ok);
        var failed := !env.ok || !plan.ok || (approval.ok && !deploy.ok);
        Run(prefix + env.events + plan.events + deploy.events, if failed then Raised(StepFailed) else Returned)
  }
}

=== FILE: order.dfy ===
/**
  The order of a run-all execution: the sequence in which the controller is
  called, segment by segment, and its agreement with the reference order.
 */
module RunAllOrder {
  import opened Checks
  import opened Controller
  import opened Runners
  import opened Orchestrator
  import opened RunAllReference
  import opened RunAllHistories

  // ---------------------------------------------------------------------------
  // The calls of each segment, in order
  // ---------------------------------------------------------------------------

  function ApprovalCallSeq(doCheck: bool, preApproved: bool): seq<Operation> {
    if doCheck && !preApproved then [HasRequiredApproval] else []
  }

  function PlanCallSeq(envUpdated: bool): seq<Operation> {
    if envUpdated then [GetPlanSummary] else []
  }

  function DeployCallSeq(approved: bool, planGenerated: bool, deployed: bool): seq<Operation> {
    if approved && planGenerated then
      [DeployToProd] + (if deployed then [TryMergePr, TryInvalidatePrEnvironment] else [])
    else []
  }

  /** A runner calls its operation first, before any best-effort follow-up. */
  lemma GateRunCallOrder(events: seq<Event>, check: Check, op: Operation)
    requires GateRun(events, check, op)
    ensures CallOrder(events) == [op] + CallOrder(events[3..])
  {
    var tail := events[3..];
    assert events == [events[0]] + [events[1]] + [events[2]] + tail;
    CallOrderAppend([events[0]] + [events[1]] + [events[2]], tail);
    CallOrderAppend([events[0]] + [events[1]], [events[2]]);
    CallOrderAppend([events[0]], [events[1]]);
    CallOrderSingle(events[0]);
    CallOrderSingle(events[1]);
    CallOrderSingle(events[2]);
  }

  /** A successful deploy calls the deploy, then merges, then tears down. */
  lemma DeployedCallOrder(ctl: GithubController)
    requires ctl.deploy.Deployed?
    ensures CallOrder(DeployProduction(ctl).events) == [DeployToProd, TryMergePr, TryInvalidatePrEnvironment]
  {
    var head := [Begin(ProdEnvironment), Invoke(DeployToProd), Finish(ProdEnvironment, Success, None)];
    var merge := Invoke(TryMergePr);
    var teardown := Invoke(TryInvalidatePrEnvironment);
    assert DeployProduction(ctl).events == head + [merge, teardown];
    CallOrderAppend(head, [merge, teardown]);
    GateRunCallOrder(head, ProdEnvironment, DeployToProd);
    ReportsCallNothing(head[3..]);
    assert CallOrder(head) == [DeployToProd];
    CallOrderPair(merge, teardown);
    CallOrderSingle(merge);
    CallOrderSingle(teardown);
    assert CallOrder([merge, teardown]) == [TryMergePr, TryInvalidatePrEnvironment];
  }

  lemma RunnerCallOrder(ctl: GithubController)
    ensures CallOrder(RunTestSuite(ctl).events) == [RunTests]
    ensures CallOrder(UpdatePrEnv(ctl).events) == [UpdatePrEnvironment]
  {
    var tests := RunTestSuite(ctl).events;
    GateRunCallOrder(tests, Tests, RunTests);
    ReportsCallNothing(tests[3..]);
    var env := UpdatePrEnv(ctl).events;
    GateRunCallOrder(env, PrEnvironment, UpdatePrEnvironment);
    ReportsCallNothing(env[3..]);
  }

  lemma QueueCallOrder(auto: bool)
    ensures CallOrder(QueueChecks(auto)) == []
  {
    ReportsCallNothing(QueueChecks(auto));
  }

  lemma CascadeCallOrder(auto: bool)
    ensures CallOrder(TestsFailedCascade(auto)) == []
  {
    ReportsCallNothing(TestsFailedCascade(auto));
  }

  lemma ApprovalGateCallOrder(ctl: GithubController, preApproved: bool)
    ensures CallOrder(ResolveApproval(ctl, preApproved).events) == ApprovalCallSeq(ctl.doRequiredApprovalCheck, preApproved)
  {
    var events := ResolveApproval(ctl, preApproved).events;
    if !ctl.doRequiredApprovalCheck || preApproved {
      ReportsCallNothing(events);
    } else {
      var s := CheckRequiredApprovers(ctl).events;
      CallOrderAppend([Queue(RequiredApproval)], s);
      CallOrderSingle(Queue(RequiredApproval));
      GateRunCallOrder(s, RequiredApproval, HasRequiredApproval);
      ReportsCallNothing(s[3..]);
    }
  }

  lemma PlanGateCallOrder(ctl: GithubController, envUpdated: bool)
    ensures CallOrder(PlanGate(ctl, envUpdated).events) == PlanCallSeq(envUpdated)
  {
    var events := PlanGate(ctl, envUpdated).events;
    if envUpdated {
      GateRunCallOrder(events, ProdPlanPreview, GetPlanSummary);
      ReportsCallNothing(events[3..]);
    } else {
      ReportsCallNothing(events);
    }
  }

  lemma DeployGateCallOrder(ctl: GithubController, auto: bool, approved: bool, envUpdated: bool, planGenerated: bool)
    ensures CallOrder(DeployGate(ctl, auto, approved, envUpdated, planGenerated).events) ==
              DeployCallSeq(approved, planGenerated, ctl.deploy.Deployed?)
  {
    var events := DeployGate(ctl, auto, approved, envUpdated, planGenerated).events;
    if !(approved && planGenerated) {
      ReportsCallNothing(events);
    } else if ctl.deploy.Deployed? {
      DeployedCallOrder(ctl);
    } else {
      GateRunCallOrder(events, ProdEnvironment, DeployToProd);
      ReportsCallNothing(events[3..]);
    }
  }

  // ---------------------------------------------------------------------------
  // Assembling a run's call order
  // ---------------------------------------------------------------------------

  /**
    The calls of a run whose tests fail, over the run's booleans: one term per
    segment in trace order, the `[]` terms being the queueing and the cascade.
   */
  function FailedOrderShape(doCheck: bool, preApproved: bool): seq<Operation> {
    [] + [RunTests] + ApprovalCallSeq(doCheck, preApproved) + []
  }

  /** The calls of a run whose tests pass, one term per segment as above. */
  function PassedOrderShape(doCheck: bool, preApproved: bool, envUpdated: bool,
                            approved: bool, planGenerated: bool, deployed: bool): seq<Operation> {
    [] + [RunTests] + ApprovalCallSeq(doCheck, preApproved) + [UpdatePrEnvironment]
    + PlanCallSeq(envUpdated) + DeployCallSeq(approved, planGenerated, deployed)
  }

  lemma FailedRunOrder(ctl: GithubController)
    requires Proceeds(ctl) && !RunTestSuite(ctl).ok
    ensures CallOrder(RunAll(ctl).trace) == FailedOrderShape(ctl.doRequiredApprovalCheck, ctl.isCommentAdded)
  {
    var auto := IsAutoDeployingProd(ctl);
    var q := QueueChecks(auto);
    var tests := RunTestSuite(ctl).events;
    var approval := ResolveApproval(ctl, ctl.isCommentAdded).events;
    CallOrderAppend(q, tests);
    CallOrderAppend(q + tests, approval);
    CallOrderAppend(q + tests + approval, TestsFailedCascade(auto));
    QueueCallOrder(auto);
    RunnerCallOrder(ctl);
    ApprovalGateCallOrder(ctl, ctl.isCommentAdded);
    CascadeCallOrder(auto);
  }

  lemma PassedRunOrder(ctl: GithubController)
    requires Proceeds(ctl) && RunTestSuite(ctl).ok
    ensures
      var approval := ResolveApproval(ctl, ctl.isCommentAdded);
      var env := UpdatePrEnv(ctl);
      CallOrder(RunAll(ctl).trace) ==
        PassedOrderShape(ctl.doRequiredApprovalCheck, ctl.isCommentAdded, env.ok,
                         approval.ok, PlanGate(ctl, env.ok).ok, ctl.deploy.Deployed?)
  {
    var auto := IsAutoDeployingProd(ctl);
    var q := QueueChecks(auto);
    var tests := RunTestSuite(ctl).events;
    var approval := ResolveApproval(ctl, ctl.isCommentAdded);
    var env := UpdatePrEnv(ctl);
    var plan := PlanGate(ctl, env.ok);
    var deploy := DeployGate(ctl, auto, approval.ok, env.ok, plan.ok).events;
    CallOrderAppend(q, tests);
    CallOrderAppend(q + tests, approval.events);
    CallOrderAppend(q + tests + approval.events, env.events);
    CallOrderAppend(q + tests + approval.events + env.events, plan.events);
    CallOrderAppend(q + tests + approval.events + env.events + plan.events, deploy);
    QueueCallOrder(auto);
    RunnerCallOrder(ctl);
    ApprovalGateCallOrder(ctl, ctl.isCommentAdded);
    PlanGateCallOrder(ctl, env.ok);
    DeployGateCallOrder(ctl, auto, approval.ok, env.ok, plan.ok);
  }

  /** Over the reference description's booleans, the shapes are the expected order. */
  lemma OrderShapesMatchExpected(ctl: GithubController)
    requires Proceeds(ctl)
    ensures !TestsPass(ctl) ==>
              FailedOrderShape(ctl.doRequiredApprovalCheck, ctl.isCommentAdded) == ExpectedCallOrder(ctl)
    ensures TestsPass(ctl) ==>
              PassedOrderShape(ctl.doRequiredApprovalCheck, ctl.isCommentAdded, EnvReady(ctl),
                               Approved(ctl), PlanReady(ctl), ctl.deploy.Deployed?) == ExpectedCallOrder(ctl)
  {
  }

  /** A run calls the controller in exactly the order the reference description predicts. */
  lemma RunCallOrder(ctl: GithubController)
    ensures CallOrder(RunAll(ctl).trace) == ExpectedCallOrder(ctl)
  {
    if Proceeds(ctl) {
      RunnersAgree(ctl);
      OrderShapesMatchExpected(ctl);
      if RunTestSuite(ctl).ok {
        PassedRunOrder(ctl);
      } else {
        FailedRunOrder(ctl);
      }
    } else {
      assert RunAll(ctl).trace == [];
    }
  }

  /** The reference order lists exactly the reference set of calls. */
  lemma ExpectedOrderListsExpectedCalls(ctl: GithubController)
    ensures forall o :: o in ExpectedCallOrder(ctl) <==> o in ExpectedCalls(ctl)
  {
  }

  /** No controller operation is called twice in one run. */
  lemma EachCallOnce(ctl: GithubController)
    ensures var order := CallOrder(RunAll(ctl).trace);
      forall i, j | 0 <= i < j < |order| :: order[i] != order[j]
  {
    RunCallOrder(ctl);
    ExpectedOrderDistinct(ctl);
  }

  lemma ExpectedOrderDistinct(ctl: GithubController)
    ensures forall i, j | 0 <= i < j < |ExpectedCallOrder(ctl)| :: ExpectedCallOrder(ctl)[i] != ExpectedCallOrder(ctl)[j]
  {
  }

  // ---------------------------------------------------------------------------
  // Where the approval step sits
  // ---------------------------------------------------------------------------

  /** An event of the tests step: the tests check moving past QUEUED, or the test run itself. */
  predicate TestsEvent(e: Event) {
    (e.Report? && e.update.check == Tests && e.update.status != Queued) || e == Invoke(RunTests)
  }

  /** An event of the approval step: any update of the approval check, or asking the controller. */
  predicate ApprovalEvent(e: Event) {
    (e.Report? && e.update.check == RequiredApproval) || e == Invoke(HasRequiredApproval)
  }

  /**
    An event after the approval step: the PR environment, plan or production
    check moving past QUEUED, or a call other than the tests and the approval.
   */
  predicate LaterEvent(e: Event) {
    if e.Report? then e.update.status != Queued && e.update.check != Tests && e.update.check != RequiredApproval
    else e.op != RunTests && e.op != HasRequiredApproval
  }

  /**
    The tests step, the approval step and the later steps never interleave:
    every event of an earlier step comes before every event of a later one.
   */
  predicate StepsInOrder(t: seq<Event>) {
    && (forall i, j | 0 <= i < |t| && 0 <= j < |t| && TestsEvent(t[i]) && ApprovalEvent(t[j]) :: i < j)
    && (forall i, j | 0 <= i < |t| && 0 <= j < |t| && ApprovalEvent(t[i]) && LaterEvent(t[j]) :: i < j)
    && (forall i, j | 0 <= i < |t| && 0 <= j < |t| && TestsEvent(t[i]) && LaterEvent(t[j]) :: i < j)
  }

  predicate AllQueuing(t: seq<Event>) {
    forall i | 0 <= i < |t| :: t[i].Report? && t[i].update.status == Queued && t[i].update.check != RequiredApproval
  }

  predicate AllTests(t: seq<Event>) {
    forall i | 0 <= i < |t| :: TestsEvent(t[i])
  }

  predicate AllApproval(t: seq<Event>) {
    forall i | 0 <= i < |t| :: ApprovalEvent(t[i])
  }

  predicate AllLater(t: seq<Event>) {
    forall i | 0 <= i < |t| :: LaterEvent(t[i])
  }

  /** Queueing, then the tests, then the approval, then the later steps, put the steps in order. */
  lemma PhasesInOrder(a: seq<Event>, b: seq<Event>, c: seq<Event>, d: seq<Event>)
    requires AllQueuing(a) && AllTests(b) && AllApproval(c) && AllLater(d)
    ensures StepsInOrder(a + b + c + d)
  {
  }

  lemma QueueingSegment(auto: bool)
    ensures AllQueuing(QueueChecks(auto))
  {
  }

  lemma TestsSegment(ctl: GithubController)
    ensures AllTests(RunTestSuite(ctl).events)
  {
  }

  lemma ApprovalSegment(ctl: GithubController, preApproved: bool)
    ensures AllApproval(ResolveApproval(ctl, preApproved).events)
  {
  }

  lemma LaterSegments(ctl: GithubController, auto: bool, approved: bool, envUpdated: bool, planGenerated: bool)
    ensures AllLater(TestsFailedCascade(auto))
    ensures AllLater(UpdatePrEnv(ctl).events)
    ensures AllLater(PlanGate(ctl, envUpdated).events)
    ensures AllLater(DeployGate(ctl, auto, approved, envUpdated, planGenerated).events)
  {
  }

  lemma LaterAppend(x: seq<Event>, y: seq<Event>)
    requires AllLater(x) && AllLater(y)
    ensures AllLater(x + y)
  {
  }

  lemma Regroup(p: seq<Event>, x: seq<Event>, y: seq<Event>, z: seq<Event>)
    ensures p + x + y + z == p + (x + y + z)
  {
  }

  /**
    The required approval is resolved after the tests have run and before
    anything of the PR environment, plan or production steps -- including the
    cascade of completions when the tests fail.
   */
  lemma ApprovalBetweenTestsAndLaterSteps(ctl: GithubController)
    ensures StepsInOrder(RunAll(ctl).trace)
  {
    if Proceeds(ctl) {
      var auto := IsAutoDeployingProd(ctl);
      var q := QueueChecks(auto);
      var tests := RunTestSuite(ctl);
      var approval := ResolveApproval(ctl, ctl.isCommentAdded);
      QueueingSegment(auto);
      TestsSegment(ctl);
      ApprovalSegment(ctl, ctl.isCommentAdded);
      if !tests.ok {
        LaterSegments(ctl, auto, false, false, false);
        PhasesInOrder(q, tests.events, approval.events, TestsFailedCascade(auto));
      } else {
        var env := UpdatePrEnv(ctl);
        var plan := PlanGate(ctl, env.ok);
        var deploy := DeployGate(ctl, auto, approval.ok, env.ok, plan.ok);
        LaterSegments(ctl, auto, approval.ok, env.ok, plan.ok);
        LaterAppend(env.events, plan.events);
        LaterAppend(env.events + plan.events, deploy.events);
        Regroup(q + tests.events + approval.events, env.events, plan.events, deploy.events);
        PhasesInOrder(q, tests.events, approval.events, env.events + plan.events + deploy.events);
      }
    }
  }
}

=== FILE: properties.dfy ===
/**
  Reachability, gating and priority properties of a run-all execution, stated
  over the trace and verdict `RunAll` produces and compared against the
  reference description of which runs pass which gate.
 */
module RunAllProperties {
  import opened Checks
  import opened Controller
  import opened Runners
  import opened Orchestrator
  import opened RunAllReference
  import opened RunAllHistories
  import opened RunAllCalls

  // ---------------------------------------------------------------------------
  // The comment gate
  // ---------------------------------------------------------------------------

  /**
    A comment stops the run before any check is touched unless it is an enabled
    deploy command: with commands disabled or an invalid command the run returns,
    an unsupported command raises.
   */
  lemma CommentEarlyExits(ctl: GithubController)
    ensures ctl.isCommentAdded && !ctl.deployCommandEnabled ==> RunAll(ctl) == Run([], EarlyReturn)
    ensures ctl.isCommentAdded && ctl.deployCommandEnabled && ctl.command.Invalid? ==>
              RunAll(ctl) == Run([], EarlyReturn)
    ensures ctl.isCommentAdded && ctl.deployCommandEnabled && ctl.command.Unsupported? ==>
              RunAll(ctl) == Run([], Raised(UnsupportedCommand(ctl.command.text)))
    ensures RunAll(ctl).trace != [] <==> Proceeds(ctl)
  {
    if Proceeds(ctl) {
      assert RunAll(ctl).trace[0] == Queue(PrEnvironment);
    }
  }

  /** A deploy command counts as the required approval: the approval check is skipped, never asked. */
  lemma DeployCommandGrantsApproval(ctl: GithubController)
    requires ctl.isCommentAdded && Proceeds(ctl)
    ensures Invoke(HasRequiredApproval) !in RunAll(ctl).trace
    ensures ctl.doRequiredApprovalCheck <==> Finish(RequiredApproval, Skipped, None) in RunAll(ctl).trace
  {
    InvokedExactlyWhen(ctl);
    if ctl.doRequiredApprovalCheck {
      ApprovalAlwaysResolved(ctl);
    } else {
      NoUpdateOfUntouchedCheck(ctl, Finish(RequiredApproval, Skipped, None));
    }
  }

  /** A check the reference description leaves untouched gets no update in a run. */
  lemma NoUpdateOfUntouchedCheck(ctl: GithubController, e: Event)
    requires Proceeds(ctl) && e.Report? && ExpectedHistory(ctl, e.update.check) == []
    ensures e !in RunAll(ctl).trace
  {
    if e in RunAll(ctl).trace {
      ReportInLifecycle(RunAll(ctl).trace, e);
      CheckHistories(ctl, e.update.check);
      assert false;
    }
  }

  /** What happens in the approval step happens in the run. */
  lemma ApprovalInRun(ctl: GithubController, e: Event)
    requires Proceeds(ctl) && e in ResolveApproval(ctl, ctl.isCommentAdded).events
    ensures e in RunAll(ctl).trace
  {
    var auto := IsAutoDeployingProd(ctl);
    var tests := RunTestSuite(ctl);
    var approval := ResolveApproval(ctl, ctl.isCommentAdded);
    var prefix := QueueChecks(auto) + tests.events + approval.events;
    var i :| 0 <= i < |approval.events| && approval.events[i] == e;
    var k := |QueueChecks(auto)| + |tests.events| + i;
    assert prefix[k] == e;
    if tests.ok {
      var env := UpdatePrEnv(ctl);
      var plan := PlanGate(ctl, env.ok);
      var deploy := DeployGate(ctl, auto, approval.ok, env.ok, plan.ok);
      assert RunAll(ctl).trace == prefix + env.events + plan.events + deploy.events;
      assert RunAll(ctl).trace[k] == e;
    } else {
      assert RunAll(ctl).trace == prefix + TestsFailedCascade(auto);
      assert RunAll(ctl).trace[k] == e;
    }
  }

  // ---------------------------------------------------------------------------
  // Required approval and the tests-failed cascade
  // ---------------------------------------------------------------------------

  /**
    Whenever the required-approval check is switched on it is resolved, whether
    or not the tests pass: completed SKIPPED without asking the controller when
    a deploy command already granted approval, queued and asked otherwise.
   */
  lemma ApprovalAlwaysResolved(ctl: GithubController)
    requires Proceeds(ctl) && ctl.doRequiredApprovalCheck
    ensures ctl.isCommentAdded ==> Finish(RequiredApproval, Skipped, None) in RunAll(ctl).trace
    ensures !ctl.isCommentAdded ==>
              && Queue(RequiredApproval) in RunAll(ctl).trace
              && Invoke(HasRequiredApproval) in RunAll(ctl).trace
  {
    var approval := ResolveApproval(ctl, ctl.isCommentAdded).events;
    if ctl.isCommentAdded {
      assert approval == [Finish(RequiredApproval, Skipped, None)];
      ApprovalInRun(ctl, Finish(RequiredApproval, Skipped, None));
    } else {
      assert approval[0] == Queue(RequiredApproval);
      ApprovalInRun(ctl, Queue(RequiredApproval));
      InvokedExactlyWhen(ctl);
    }
  }

  /**
    Failed tests decide the rest of the run: the PR environment is completed
    with a TestFailure, the plan preview and (when auto-deploying) the
    production check are skipped, no further runner is called, and the run raises.
   */
  lemma FailedTestsStopTheRun(ctl: GithubController)
    requires Proceeds(ctl) && !TestsPass(ctl)
    ensures RunAll(ctl).verdict == Raised(TestsNotPassed)
    ensures FinishDerived(PrEnvironment, Some(TestFailureException)) in RunAll(ctl).trace
    ensures Finish(ProdPlanPreview, Skipped, Some(Summary(PlanSkippedForTests))) in RunAll(ctl).trace
    ensures Finish(ProdEnvironment, Skipped, Some(SkipReason(TestsFailed))) in RunAll(ctl).trace <==> IsAutoDeployingProd(ctl)
    ensures Invoke(UpdatePrEnvironment) !in RunAll(ctl).trace
    ensures Invoke(GetPlanSummary) !in RunAll(ctl).trace
    ensures Invoke(DeployToProd) !in RunAll(ctl).trace
  {
    RunnersAgree(ctl);
    InvokedExactlyWhen(ctl);
    var auto := IsAutoDeployingProd(ctl);
    var tests := RunTestSuite(ctl);
    assert !tests.ok;
    var prefix := QueueChecks(auto) + tests.events + ResolveApproval(ctl, ctl.isCommentAdded).events;
    var cascade := TestsFailedCascade(auto);
    assert RunAll(ctl).trace == prefix + cascade;
    assert cascade[0] == FinishDerived(PrEnvironment, Some(TestFailureException));
    assert cascade[1] == Finish(ProdPlanPreview, Skipped, Some(Summary(PlanSkippedForTests)));
    if auto {
      assert cascade[2] == Finish(ProdEnvironment, Skipped, Some(SkipReason(TestsFailed)));
    } else {
      NoUpdateOfUntouchedCheck(ctl, Finish(ProdEnvironment, Skipped, Some(SkipReason(TestsFailed))));
    }
  }

  /**
    A proceeding run first queues the PR environment, the plan preview and the
    tests, in that order, then production when auto-deploying, and only then
    starts the tests.
   */
  lemma ChecksQueuedInSourceOrder(ctl: GithubController)
    requires Proceeds(ctl)
    ensures var t := RunAll(ctl).trace;
      && |t| >= 4
      && t[0] == Queue(PrEnvironment) && t[1] == Queue(ProdPlanPreview) && t[2] == Queue(Tests)
      && t[3] == (if IsAutoDeployingProd(ctl) then Queue(ProdEnvironment) else Begin(Tests))
  {
    var auto := IsAutoDeployingProd(ctl);
    var q := QueueChecks(auto);
    var tests := RunTestSuite(ctl).events;
    assert RunAll(ctl).trace[..|q|] == q;
    assert tests[0] == Begin(Tests);
    if !auto {
      assert RunAll(ctl).trace[3] == tests[0];
    }
  }

  /**
    A run whose tests fail ends with the cascade in source order: the PR
    environment's TestFailure completion, then the plan preview's skip, then,
    when auto-deploying, production's skip.
   */
  lemma CascadeInSourceOrder(ctl: GithubController)
    requires Proceeds(ctl) && !TestsPass(ctl)
    ensures var t := RunAll(ctl).trace;
      var n := if IsAutoDeployingProd(ctl) then 3 else 2;
      && |t| >= n
      && t[|t| - n] == FinishDerived(PrEnvironment, Some(TestFailureException))
      && t[|t| - n + 1] == Finish(ProdPlanPreview, Skipped, Some(Summary(PlanSkippedForTests)))
      && (IsAutoDeployingProd(ctl) ==> t[|t| - 1] == Finish(ProdEnvironment, Skipped, Some(SkipReason(TestsFailed))))
  {
    RunnersAgree(ctl);
    var auto := IsAutoDeployingProd(ctl);
    assert !RunTestSuite(ctl).ok;
    var prefix := QueueChecks(auto) + RunTestSuite(ctl).events + ResolveApproval(ctl, ctl.isCommentAdded).events;
    var cascade := TestsFailedCascade(auto);
    assert RunAll(ctl).trace == prefix + cascade;
  }

  // ---------------------------------------------------------------------------
  // The gating chain
  // ---------------------------------------------------------------------------

  /** The plan is asked for exactly when the tests passed and the PR environment was updated. */
  lemma PlanOnlyOnUpdatedEnvironment(ctl: GithubController)
    ensures Invoke(GetPlanSummary) in RunAll(ctl).trace <==> Proceeds(ctl) && TestsPass(ctl) && EnvReady(ctl)
    ensures Proceeds(ctl) && TestsPass(ctl) && !EnvReady(ctl) ==>
              Finish(ProdPlanPreview, Skipped, None) in RunAll(ctl).trace
  {
    InvokedExactlyWhen(ctl);
    if Proceeds(ctl) && TestsPass(ctl) && !EnvReady(ctl) {
      RunnersAgree(ctl);
      assert PlanGate(ctl, UpdatePrEnv(ctl).ok).events == [Finish(ProdPlanPreview, Skipped, None)];
    }
  }

  /**
    Production is deployed exactly when the tests passed, approval holds and a
    plan was generated; approval implies auto-deploying, so the production
    check was queued earlier in the same run.
   */
  lemma DeployOnlyWhenApprovedAndPlanned(ctl: GithubController)
    ensures Invoke(DeployToProd) in RunAll(ctl).trace <==>
              Proceeds(ctl) && TestsPass(ctl) && Approved(ctl) && PlanReady(ctl)
    ensures Invoke(DeployToProd) in RunAll(ctl).trace ==>
              exists i, j :: 0 <= i < j < |RunAll(ctl).trace|
                          && RunAll(ctl).trace[i] == Queue(ProdEnvironment)
                          && RunAll(ctl).trace[j] == Invoke(DeployToProd)
  {
    InvokedExactlyWhen(ctl);
    if Invoke(DeployToProd) in RunAll(ctl).trace {
      QueuedBeforeDeploy(ctl);
    }
  }

  /** In a run that deploys, the production check's queue update comes before the deploy call. */
  lemma QueuedBeforeDeploy(ctl: GithubController)
    requires Proceeds(ctl) && TestsPass(ctl) && Approved(ctl) && PlanReady(ctl)
    ensures exists i, j :: 0 <= i < j < |RunAll(ctl).trace|
                        && RunAll(ctl).trace[i] == Queue(ProdEnvironment)
                        && RunAll(ctl).trace[j] == Invoke(DeployToProd)
  {
    RunnersAgree(ctl);
    var auto := IsAutoDeployingProd(ctl);
    var approval := ResolveApproval(ctl, ctl.isCommentAdded);
    var env := UpdatePrEnv(ctl);
    var plan := PlanGate(ctl, env.ok);
    var q := QueueChecks(auto);
    var before := q + RunTestSuite(ctl).events + approval.events + env.events + plan.events;
    var deploy := DeployGate(ctl, auto, approval.ok, env.ok, plan.ok).events;
    assert RunAll(ctl).trace == before + deploy;
    assert q[3] == Queue(ProdEnvironment);
    assert RunAll(ctl).trace[3] == Queue(ProdEnvironment);
    assert deploy[1] == Invoke(DeployToProd);
    assert RunAll(ctl).trace[|before| + 1] == Invoke(DeployToProd);
  }

  // ---------------------------------------------------------------------------
  // Skip reasons
  // ---------------------------------------------------------------------------

  /**
    When auto-deploying but not deploying, the production check is completed
    SKIPPED, as the run's last update, with the first reason that applies: no
    approval, then the PR environment not updated, then no plan.
   */
  lemma SkipReasonPriority(ctl: GithubController)
    requires Proceeds(ctl) && TestsPass(ctl) && IsAutoDeployingProd(ctl)
    requires !(Approved(ctl) && PlanReady(ctl))
    ensures
      var t := RunAll(ctl).trace;
      t != [] && t[|t| - 1] == Finish(ProdEnvironment, Skipped, Some(SkipReason(ExpectedSkipReason(ctl))))
  {
    RunnersAgree(ctl);
    var auto := IsAutoDeployingProd(ctl);
    var approval := ResolveApproval(ctl, ctl.isCommentAdded);
    var env := UpdatePrEnv(ctl);
    var plan := PlanGate(ctl, env.ok);
    var before := QueueChecks(auto) + RunTestSuite(ctl).events + approval.events + env.events + plan.events;
    var deploy := DeployGate(ctl, auto, approval.ok, env.ok, plan.ok).events;
    assert DeploySkipReason(approval.ok, env.ok, plan.ok) == ExpectedSkipReason(ctl);
    assert deploy == [Finish(ProdEnvironment, Skipped, Some(SkipReason(ExpectedSkipReason(ctl))))];
    assert RunAll(ctl).trace == before + deploy;
  }

  /** The deploy decision never reports the "unknown reason": it is chosen only when the deploy runs instead. */
  lemma DeployGateNeverUnknown(ctl: GithubController, auto: bool, approved: bool, envUpdated: bool, planGenerated: bool)
    ensures NeverUnknown(DeployGate(ctl, auto, approved, envUpdated, planGenerated).events)
  {
    if approved && planGenerated {
      var events := DeployProduction(ctl).events;
      forall i | 0 <= i < |events|
        ensures !(events[i].Report? && events[i].update.payload == Some(SkipReason(UnknownReason)))
      {
        if events[i].Report? && events[i].update.payload.Some? && events[i].update.payload.value.SkipReason? {
          assert i == 2;
        }
      }
    }
  }

  /** No update in `t` carries the "unknown reason" skip reason. */
  predicate NeverUnknown(t: seq<Event>) {
    forall i | 0 <= i < |t| :: !(t[i].Report? && t[i].update.payload == Some(SkipReason(UnknownReason)))
  }

  /** No update of any run carries the "unknown reason" skip reason. */
  lemma UnknownReasonUnreachable(ctl: GithubController)
    ensures NeverUnknown(RunAll(ctl).trace)
  {
    if Proceeds(ctl) {
      PrefixNeverUnknown(ctl);
      if RunTestSuite(ctl).ok {
        PassedRunNeverUnknown(ctl);
      } else {
        var auto := IsAutoDeployingProd(ctl);
        var prefix := QueueChecks(auto) + RunTestSuite(ctl).events + ResolveApproval(ctl, ctl.isCommentAdded).events;
        NeverUnknownAppend(prefix, TestsFailedCascade(auto));
      }
    }
  }

  lemma PrefixNeverUnknown(ctl: GithubController)
    ensures NeverUnknown(QueueChecks(IsAutoDeployingProd(ctl)) + RunTestSuite(ctl).events
                         + ResolveApproval(ctl, ctl.isCommentAdded).events)
  {
  }

  lemma PassedRunNeverUnknown(ctl: GithubController)
    requires Proceeds(ctl) && RunTestSuite(ctl).ok
    ensures NeverUnknown(RunAll(ctl).trace)
  {
    var auto := IsAutoDeployingProd(ctl);
    var approval := ResolveApproval(ctl, ctl.isCommentAdded);
    var prefix := QueueChecks(auto) + RunTestSuite(ctl).events + approval.events;
    var env := UpdatePrEnv(ctl);
    var plan := PlanGate(ctl, env.ok);
    var deploy := DeployGate(ctl, auto, approval.ok, env.ok, plan.ok);
    PrefixNeverUnknown(ctl);
    NeverUnknownAppend(prefix, env.events);
    NeverUnknownAppend(prefix + env.events, plan.events);
    DeployGateNeverUnknown(ctl, auto, approval.ok, env.ok, plan.ok);
    NeverUnknownAppend(prefix + env.events + plan.events, deploy.events);
  }

  lemma NeverUnknownAppend(a: seq<Event>, b: seq<Event>)
    requires NeverUnknown(a) && NeverUnknown(b)
    ensures NeverUnknown(a + b)
  {
    forall i | 0 <= i < |a + b|
      ensures !((a + b)[i].Report? && (a + b)[i].update.payload == Some(SkipReason(UnknownReason)))
    {
      if i >= |a| {
        assert (a + b)[i] == b[i - |a|];
      }
    }
  }

  // ---------------------------------------------------------------------------
  // The verdict
  // ---------------------------------------------------------------------------

  /**
    A run reaches the return at the end of `_run_all` exactly when it gets past
    the tests, the PR environment was updated, a plan was generated and, if
    approval holds, the deploy succeeded; a run past the tests that misses any
    of these raises the run-all error.
   */
  lemma RunVerdict(ctl: GithubController)
    ensures RunAll(ctl).verdict == Returned <==> Proceeds(ctl) && TestsPass(ctl) && AllStepsSucceed(ctl)
    ensures RunAll(ctl).verdict == Raised(StepFailed) <==> Proceeds(ctl) && TestsPass(ctl) && !AllStepsSucceed(ctl)
  {
    if Proceeds(ctl) {
      RunnersAgree(ctl);
    }
  }

  /** A fully green run without approval reaches the final return and never deploys. */
  lemma GreenRunWithoutApproval(ctl: GithubController)
    requires Proceeds(ctl) && TestsPass(ctl) && PlanReady(ctl) && !Approved(ctl)
    ensures RunAll(ctl).verdict == Returned
    ensures Invoke(DeployToProd) !in RunAll(ctl).trace
  {
    RunVerdict(ctl);
    InvokedExactlyWhen(ctl);
  }
}

=== FILE: reference.dfy ===
/**
  A reference description of a run-all execution, written directly over the
  controller's configuration and outcomes and independently of the
  orchestrator: which runs get past the comment gate, pass the tests, hold
  the required approval, update the PR environment and generate a plan, and
  the status history every check should then go through.
 */
module RunAllReference {
  import opened Checks
  import opened Controller

  /** The comment gate lets the run through: no comment, or a deploy command that is enabled. */
  predicate Proceeds(ctl: GithubController) {
    !ctl.isCommentAdded || (ctl.deployCommandEnabled && ctl.command.DeployProd?)
  }

  predicate TestsPass(ctl: GithubController) {
    ctl.tests == TestsRan(true)
  }

  /** Approval holds: granted by the deploy command, or found by the required-approval check. */
  predicate Approved(ctl: GithubController) {
    ctl.isCommentAdded || (ctl.doRequiredApprovalCheck && ctl.hasRequiredApproval)
  }

  /** The PR environment counts as updated. */
  predicate EnvReady(ctl: GithubController) {
    match ctl.env
    case EnvUpdated(d) => d == Some(Success)
    case EnvRaised(d) => d.Some? && d.value != Failure && d.value != ActionRequired
  }

  /** A non-empty production plan summary is produced, on an updated PR environment. */
  predicate PlanReady(ctl: GithubController) {
    EnvReady(ctl) && ctl.plan.PlanSummary? && ctl.plan.text != []
  }

  /** Everything the run-all verdict asks for: environment, plan, and a deploy whenever approved. */
  predicate AllStepsSucceed(ctl: GithubController) {
    EnvReady(ctl) && PlanReady(ctl) && (Approved(ctl) ==> ctl.deploy.Deployed?)
  }

  /** The status history each check goes through in a run that passes the comment gate. */
  function ExpectedHistory(ctl: GithubController, c: Check): seq<Status> {
    var full := [Queued, InProgress, Completed];
    var skipped := [Queued, Completed];
    match c
    case Tests => full
    case RequiredApproval =>
      if !ctl.doRequiredApprovalCheck then []
      else if ctl.isCommentAdded then [Completed]
      else full
    case PrEnvironment => if TestsPass(ctl) then full else skipped
    case ProdPlanPreview => if TestsPass(ctl) && EnvReady(ctl) then full else skipped
    case ProdEnvironment =>
      if !IsAutoDeployingProd(ctl) then []
      else if TestsPass(ctl) && Approved(ctl) && PlanReady(ctl) then full
      else skipped
  }

  /** The skip reason the production check should carry when auto-deploying but not deploying. */
  function ExpectedSkipReason(ctl: GithubController): Reason {
    if !Approved(ctl) then NoApproval
    else if !EnvReady(ctl) then EnvNotUpdated
    else PlanNotGenerated
  }

  /**
    The controller operations a run invokes: the tests always, the approval
    check when it is required and not already granted, and, once the tests
    pass, the PR environment, then the plan on an updated environment, then the
    deploy when approved and planned, followed by merge and teardown when it
    succeeds.
   */
  function ExpectedCalls(ctl: GithubController): set<Operation> {
    if !Proceeds(ctl) then {}
    else
      {RunTests}
      + (if ctl.doRequiredApprovalCheck && !ctl.isCommentAdded then {HasRequiredApproval} else {})
      + (if !TestsPass(ctl) then {}
         else
           {UpdatePrEnvironment}
           + (if EnvReady(ctl) then {GetPlanSummary} else {})
           + (if Approved(ctl) && PlanReady(ctl) then
                {DeployToProd} + (if ctl.deploy.Deployed? then {TryMergePr, TryInvalidatePrEnvironment} else {})
              else {}))
  }

  /**
    The order in which a run calls the controller: the tests, then the
    approval check when it is asked, and, once the tests pass, the PR
    environment, the plan on an updated environment, and the deploy when
    approved and planned, followed by merge and then teardown when it
    succeeds.
   */
  function ExpectedCallOrder(ctl: GithubController): seq<Operation> {
    if !Proceeds(ctl) then []
    else
      [RunTests]
      + (if ctl.doRequiredApprovalCheck && !ctl.isCommentAdded then [HasRequiredApproval] else [])
      + (if !TestsPass(ctl) then []
         else
           [UpdatePrEnvironment]
           + (if EnvReady(ctl) then [GetPlanSummary] else [])
           + (if Approved(ctl) && PlanReady(ctl) then
                [DeployToProd] + (if ctl.deploy.Deployed? then [TryMergePr, TryInvalidatePrEnvironment] else [])
              else []))
  }
}

=== FILE: runners.dfy ===
/**
  The five gate runners.  Each moves its check to IN_PROGRESS, calls exactly
  one controller operation, and maps the outcome -- including a raised
  exception -- to a terminal conclusion and a boolean.  The test, PR
  environment, plan and deploy runners catch every exception of their
  operation.  The approval runner has no handler: the model takes
  `has_required_approval` to answer, so every runner here is a total function
  of the controller's outcomes.
 */
module Runners {
  import opened Checks
  import opened Controller

  /** The events a runner emits and the boolean it returns. */
  datatype Step = Step(events: seq<Event>, ok: bool)

  /**
    The shape every runner shares: begin the check, call the operation,
    complete the check; after that only best-effort controller calls follow.
   */
  predicate GateRun(events: seq<Event>, check: Check, op: Operation) {
    && |events| >= 3
    && events[0] == Begin(check)
    && events[1] == Invoke(op)
    && events[2].Report?
    && events[2].update.check == check
    && events[2].update.status == Completed
    && forall i | 3 <= i < |events| :: events[i].Invoke?
  }

  /** The completing update of a runner's events. */
  function Completion(events: seq<Event>): Update
    requires |events| >= 3 && events[2].Report?
  {
    events[2].update
  }

  /** `_check_required_approvers` (command.py). */
  function CheckRequiredApprovers(ctl: GithubController): (r: Step)
    ensures GateRun(r.events, RequiredApproval, HasRequiredApproval)
    ensures r.ok <==> ctl.hasRequiredApproval
    ensures r.ok <==> Completion(r.events).conclusion == Some(Success)
    ensures !r.ok <==> Completion(r.events).conclusion == Some(Neutral)
  {
    var approved := ctl.hasRequiredApproval;
    var conclusion := if approved then Success else Neutral;
    Step([Begin(RequiredApproval), Invoke(HasRequiredApproval), Finish(RequiredApproval, conclusion, None)], approved)
  }

  /** `_run_tests` (command.py). */
  function RunTestSuite(ctl: GithubController): (r: Step)
    ensures GateRun(r.events, Tests, RunTests)
    ensures ctl.tests.TestsRan? ==>
              && Completion(r.events).conclusion == Some(Neutral)
              && (r.ok <==> ctl.tests.successful)
    ensures ctl.tests.TestsRaised? ==>
              && Completion(r.events).conclusion == Some(Failure)
              && Completion(r.events).payload == Some(Traceback)
              && !r.ok
    ensures Completion(r.events).conclusion != Some(Success)
  {
    match ctl.tests
    case TestsRan(successful) =>
      Step([Begin(Tests), Invoke(RunTests), Finish(Tests, Neutral, Some(TestReport(successful)))], successful)
    case TestsRaised =>
      Step([Begin(Tests), Invoke(RunTests), Finish(Tests, Failure, Some(Traceback))], false)
  }

  /** `_update_pr_environment` (command.py). */
  function UpdatePrEnv(ctl: GithubController): (r: Step)
    ensures GateRun(r.events, PrEnvironment, UpdatePrEnvironment)
    ensures Completion(r.events).conclusion == None
    ensures Completion(r.events).payload == (if ctl.env.EnvRaised? then Some(RaisedException) else None)
    ensures ctl.env.EnvUpdated? ==> (r.ok <==> ctl.env.derived == Some(Success))
    ensures ctl.env.EnvRaised? ==>
              (r.ok <==> ctl.env.derived.Some? && !ctl.env.derived.value.IsFailure()
                                               && !ctl.env.derived.value.IsActionRequired())
    ensures ctl.env.derived.None? ==> !r.ok
  {
    match ctl.env
    case EnvUpdated(derived) =>
      var events := [Begin(PrEnvironment), Invoke(UpdatePrEnvironment), FinishDerived(PrEnvironment, None)];
      Step(events, derived.Some? && derived.value.IsSuccess())
    case EnvRaised(derived) =>
      var events := [Begin(PrEnvironment), Invoke(UpdatePrEnvironment), FinishDerived(PrEnvironment, Some(RaisedException))];
      Step(events, derived.Some? && !derived.value.IsFailure() && !derived.value.IsActionRequired())
  }

  /** `_gen_prod_plan` (command.py). */
  function GenProdPlan(ctl: GithubController): (r: Step)
    ensures GateRun(r.events, ProdPlanPreview, GetPlanSummary)
    ensures r.ok <==> ctl.plan.PlanSummary? && |ctl.plan.text| > 0
    ensures ctl.plan.PlanSummary? ==>
              Completion(r.events) == Update(ProdPlanPreview, Completed, Some(Success), Some(Summary(ctl.plan.text)))
    ensures ctl.plan.PlanRaised? ==>
              Completion(r.events) == Update(ProdPlanPreview, Completed, Some(Failure), Some(Summary(ctl.plan.message)))
  {
    match ctl.plan
    case PlanSummary(text) =>
      Step([Begin(ProdPlanPreview), Invoke(GetPlanSummary), Finish(ProdPlanPreview, Success, Some(Summary(text)))], text != [])
    case PlanRaised(message) =>
      Step([Begin(ProdPlanPreview), Invoke(GetPlanSummary), Finish(ProdPlanPreview, Failure, Some(Summary(message)))], false)
  }

  /** The except clauses of `_deploy_production`, tried in source order. */
  function DeployFailure(e: DeployError): (u: Update)
    ensures u.check == ProdEnvironment && u.status == Completed
    ensures e.conflict.Some? ==> u.conclusion == Some(Skipped) && u.payload == Some(SkipReason(Conflict(e.conflict.value)))
    ensures e.conflict.None? && e.isPlanError ==> u.conclusion == Some(ActionRequired) && u.payload == None
    ensures e.conflict.None? && !e.isPlanError ==> u.conclusion == Some(Failure) && u.payload == None
  {
    if e.conflict.Some? then Update(ProdEnvironment, Completed, Some(Skipped), Some(SkipReason(Conflict(e.conflict.value))))
    else if e.isPlanError then Update(ProdEnvironment, Completed, Some(ActionRequired), None)
    else Update(ProdEnvironment, Completed, Some(Failure), None)
  }

  /** `_deploy_production` (command.py). */
  function DeployProduction(ctl: GithubController): (r: Step)
    ensures GateRun(r.events, ProdEnvironment, DeployToProd)
    ensures r.ok <==> ctl.deploy.Deployed?
    ensures r.ok <==> Completion(r.events).conclusion == Some(Success)
    ensures r.ok <==> Invoke(TryMergePr) in r.events
    ensures r.ok <==> Invoke(TryInvalidatePrEnvironment) in r.events
    ensures |r.events| > 3 ==> Completion(r.events).conclusion == Some(Success)
    ensures ctl.deploy.DeployRaised? ==> Completion(r.events) == DeployFailure(ctl.deploy.error)
  {
    var prefix := [Begin(ProdEnvironment), Invoke(DeployToProd)];
    match ctl.deploy
    case Deployed =>
      Step(prefix + [Finish(ProdEnvironment, Success, None), Invoke(TryMergePr), Invoke(TryInvalidatePrEnvironment)], true)
    case DeployRaised(e) =>
      Step(prefix + [Report(DeployFailure(e))], false)
  }

  /** A runner's events update only its own check, first IN_PROGRESS and then COMPLETED. */
  lemma {:induction false} GateRunLifecycle(events: seq<Event>, check: Check, op: Operation, c: Check)
    requires GateRun(events, check, op)
    ensures Lifecycle(events, c) == (if c == check then [InProgress, Completed] else [])
  {
    var tail := events[3..];
    assert events == [events[0]] + [events[1]] + [events[2]] + tail;
    LifecycleAppend([events[0]] + [events[1]] + [events[2]], tail, c);
    LifecycleAppend([events[0]] + [events[1]], [events[2]], c);
    LifecycleAppend([events[0]], [events[1]], c);
    LifecycleSingle(events[0], c);
    LifecycleSingle(events[1], c);
    LifecycleSingle(events[2], c);
    UntouchedLifecycle(tail, c);
  }

  /** Every runner sets a conclusion only on its completing update. */
  lemma RunnerConclusions(ctl: GithubController)
    ensures ConclusionOnlyWhenCompleted(CheckRequiredApprovers(ctl).events)
    ensures ConclusionOnlyWhenCompleted(RunTestSuite(ctl).events)
    ensures ConclusionOnlyWhenCompleted(UpdatePrEnv(ctl).events)
    ensures ConclusionOnlyWhenCompleted(GenProdPlan(ctl).events)
    ensures ConclusionOnlyWhenCompleted(DeployProduction(ctl).events)
  {
  }
}
